=== FILE: README.md ===
# Finishing-items list: a model of the room inventory

The page builds a list of electrical finishing items (outlets, switches, bell pushes and
free-text custom items) room by room, and then prints it. Its state has four parts:
- a list name;
- the saved rooms, in creation order;
- one draft room being filled in;
- an optional target room for custom mode.

Rooms are matched by a comparison key, not by their raw names. The key (`sanitize`) is the
name with these steps applied, in order:
1. decomposed to NFD;
2. combining marks removed;
3. lower-cased;
4. whitespace runs collapsed to one space;
5. trimmed.

Saving the draft merges it into the first saved room with the same key, or appends it as a
new room. Custom items are stored under `c:` plus their caption, with that caption kept as
their label. The buttons on a saved room carry `id:key` in a data attribute.

The Dafny modules follow that structure:
- `JsText`: JavaScript whitespace, `trim` and `replace(/\s+/g, ' ')`.
- `RoomKey`: `sanitize`, over a parameter that stands for the runtime's Unicode tables.
- `Html`: `escapeHtml`, and what a browser reads back from it.
- `Catalog`: the item catalogue, `keyTomada`, custom keys, and the printed item text.
- `ButtonData`: the `id:key` packing of the room buttons.
- `Inventory`: the state and every operation on it.
- `InventoryProofs`: every user action as an event, the invariants every event keeps, and a
  few walks through the page from boot.

Quantities are `real`. A field or prompt answer is `Option<real>`, where `None` stands for
a non-finite `Number(...)`. Ids that `uid()` would draw are parameters of the operations
that need them. The answer to a `prompt` is a parameter too.

Two details of the code are easy to misread, and the model follows the code in both:
- Quantities entered on the save form are not rounded down. The code adds
  `Math.max(0, Number(v))` as it is.
- Editing a quantity to a value strictly between 0 and 1 does not remove the item. The code
  compares the raw answer with 0 and then stores `Math.floor` of it, which is 0.

These behaviours of the code are modelled as they are:
- An `addCustomEntry` whose target room no longer exists changes nothing, yet still reports its quantity as added.
- Deleting the room that custom mode targets does not clear the target.
- Custom entries added with no target and an unnamed draft stay in the draft, although `addPers` reports success.
- A room id containing ':' would send its item buttons to the wrong room. The ids `uid()` draws never contain one.

## Model

| member | source | states |
|---|---|---|
| JsText.Trim | assets/app.js:63 | The trimmed string has no whitespace at either end and is no longer than the input. |
| JsText.TrimSlice | assets/app.js:63 | The trimmed string is a contiguous slice of the input, and everything cut off on both sides is whitespace. |
| JsText.CollapseShape | assets/app.js:63 | After whitespace runs are replaced, the only whitespace left is plain spaces and no two are adjacent. The result is empty exactly when the input is, and starts with whitespace exactly when the input does. |
| JsText.TrimMargins | assets/app.js:63 | Every string is its trimmed form with a whitespace-only margin on each side. |
| RoomKey.SanitizeWellSpaced | assets/app.js:62-65 | Under any runtime, in either branch of the try/catch, the key has no whitespace margins, only plain spaces, and never two in a row. |
| RoomKey.SanitizeByChar | assets/app.js:62-65 | The key is built from the input one code point at a time: each code point's folded image is concatenated, then collapsed and trimmed. |
| RoomKey.SanitizeIdempotent | assets/app.js:62-65 | Sanitizing a key again gives the same key, for any runtime under which the plain space folds to itself and every character the per-character fold emits is its own fold (`KeyStable`). |
| RoomKey.SpacesKeyToSpaces | assets/app.js:63 | Under a runtime that folds every whitespace character to non-empty whitespace (`SpacesFoldToSpaces`), a whitespace run folds to whitespace, and a non-empty run to a non-empty one. |
| RoomKey.SpacesFoldToSpacesFromTables | assets/app.js:63 | A runtime whose NFD maps each whitespace character to non-empty whitespace (U+2000 to U+2002, say) and whose lower-casing leaves it alone satisfies `SpacesFoldToSpaces`. |
| RoomKey.SanitizeIgnoresMargins | assets/app.js:63 | Under `SpacesFoldToSpaces`, whitespace around a name does not change its key. |
| RoomKey.SanitizeOfTrim | assets/app.js:63 | Under `SpacesFoldToSpaces`, a name and its trimmed form have the same key. |
| RoomKey.SanitizeCollapsesRuns | assets/app.js:63 | Under `SpacesFoldToSpaces`, any two non-empty whitespace runs in the same place give the same key. |
| RoomKey.SanitizeCharClass | assets/app.js:63 | Two characters with the same fold, such as the two cases of a letter, are interchangeable in a name. |
| RoomKey.SanitizeDropsMarks | assets/app.js:63 | In the NFD branch, a character that decomposes only into combining marks disappears from the key. |
| RoomKey.CleanTablesKeyStable | assets/app.js:62-65 | Suppose the runtime has NFD, the plain space decomposes and lower-cases to itself, decomposition settles after one step, and lower-casing a mark-free character yields settled, mark-free characters. Then the runtime is `KeyStable`: the space folds to itself and every character the fold emits is its own fold. |
| RoomKey.MarkEmittingLowerBreaksIdempotence | assets/app.js:63 | A lower-casing that emits a combining mark ('I' to "i" plus U+0307) makes sanitize not idempotent, because the mark added by lower-casing is only stripped on the second pass. |
| Html.Escape | assets/app.js:60 | Escaped text contains no `<`, `>`, `"` or `'` at all. |
| Html.EscapeRoundTrip | assets/app.js:60 | Decoding the five entities `Escape` writes gives back exactly the original string. |
| Catalog.OutletKeyExactly | assets/app.js:87-91 | For any style, the outlet lookup finds a code if and only if the style is simples, dupla or tripla and the amperage is 10 or 20. Any code it finds is in the catalogue. |
| Catalog.OutletKeyOnly | assets/app.js:87-91 | For any style, a lookup that finds a code was given one of the three styles and one of the two amperages. |
| Catalog.OutletKeyCovers | assets/app.js:77-91 | Each of the six style and amperage pairs finds a catalogue code, and that code is labelled "Tomada", then the style, then the amperage followed by "A". |
| Catalog.CustomKey | assets/app.js:411 | A custom item's key is tagged `c:`, and the caption can be read back after the tag. |
| Catalog.CustomKeyInjective | assets/app.js:411 | Two captions give the same custom key if and only if they are equal. |
| Catalog.ExportText | assets/app.js:503-514 | The printed text has these cases: a catalogue item shows its label (the code when it is unknown) with the kit suffix at the end; a custom item shows its stored label with no suffix, or its key when the label is missing or empty. |
| Catalog.CustomPrintsVerbatim | assets/app.js:503-514 | A custom item stored with its own caption as label prints exactly that caption. |
| ButtonData.Split | assets/app.js:340 | Splitting on ':' gives at least one part, no part contains ':', and joining the parts with ':' gives back the string. |
| ButtonData.UnpackPack | assets/app.js:167-168 | Unpacking a button's data gives back the room id and item key it was packed from if and only if the id contains no ':'. |
| Inventory.FirstIndex | assets/app.js:244 | `findIndex`: the index returned satisfies the predicate and no earlier room does; None means no room does. |
| Inventory.IndexOfKeyFinds | assets/app.js:244 | The room lookup by key returns exactly the first room whose name has that key. |
| Inventory.DeleteItem | assets/app.js:318-323 | The key leaves both the quantity map and the label map; every other entry, the id and the name stay. |
| Inventory.EditItem | assets/app.js:324-332 | A non-finite answer changes nothing; an answer at or below 0 deletes the item; any other answer stores the largest whole number not above it, with the other entries and labels unchanged. |
| Inventory.AddCustom | assets/app.js:414-417 | The custom key's quantity grows by the amount added and its label becomes the caption; nothing else changes. |
| Inventory.FoldDraft | assets/app.js:246-255 | Absorbing the draft adds each of its quantities to the room's and leaves the room's other keys alone; custom labels are overwritten by the draft's, other labels are kept; id and name are kept. |
| Inventory.NewRoom | assets/app.js:257-259 | A draft saved as a room of its own keeps its name, items and labels; it gets a fresh id only when it has none. |
| Inventory.Merge | assets/app.js:239-269 | The merge succeeds if and only if the trimmed draft name is non-empty. A refused merge changes nothing. A successful one conserves every key's total over the rooms plus the draft, and leaves an empty draft named as requested. |
| Inventory.MergePlacement | assets/app.js:243-260 | A merge folds the draft into the first room with the same key and leaves the other rooms as they were. With no such room, the draft is appended as a new last room. |
| Inventory.MergeShape | assets/app.js:243-260 | The same placement in terms of ids and names: a matching room keeps its id, its name and its position; otherwise one room is added after the old ones. |
| Inventory.Positive | assets/app.js:278 | A field contributes a non-negative amount, and a positive one exactly when it parses to a positive number; that amount is then the number itself, which is what the save form stores. |
| Inventory.Accumulate | assets/app.js:274-294 | The total added is the sum of the fields' contributions. A key is present afterwards iff it was present or received a positive amount, and its quantity is the old one plus what it received. |
| Inventory.NothingAccumulated | assets/app.js:296 | When every field contributes nothing, the draft's items are unchanged. |
| Inventory.SaveDraft | assets/app.js:271-298 | Saving with an empty name and saving with nothing entered are both refused, and either refusal leaves the state unchanged. Otherwise every key's total over the rooms grows by the draft's old quantity plus the form's contribution, and a fresh draft keeps the name. |
| Inventory.SavePlacement | assets/app.js:298 | A save lands in the first room with the draft's key, which keeps its id and name while the other rooms stay as they were. Without such a room, a new last room is created with the draft's id and name. |
| Inventory.StartDraft | assets/app.js:302-303 | A fresh draft that is unnamed and empty; the rooms, list name and target are untouched. |
| Inventory.ResetAll | assets/app.js:100-103 | Every part of the state returns to what the page boots with. |
| Inventory.Export | assets/app.js:482-546 | Exporting with no saved room changes nothing. Otherwise the list is printed and every part of the state returns to what the page boots with, so no room is left. |
| Inventory.RenameDraft | assets/app.js:565-566 | The draft's name becomes the typed text without its whitespace margins (as `JsText.TrimSlice` characterises trimming); nothing else in the state changes. |
| Inventory.SetListName | assets/app.js:559-560 | The list name becomes the typed text without its whitespace margins (as `JsText.TrimSlice` characterises trimming); nothing else in the state changes. |
| Inventory.DeleteDraftItem | assets/app.js:318-323 | The key leaves the draft's quantities and labels; all else in the state is unchanged. |
| Inventory.EditDraftItem | assets/app.js:324-332 | The draft is edited as described for EditItem; the rooms, list name and target are unchanged. |
| Inventory.UpdateRoom | assets/app.js:341-342 | Only the first room with the id is changed; with no such room the state is unchanged. |
| Inventory.DeleteRoomItem | assets/app.js:338-343 | The key leaves the first room with the id; other rooms and the draft are untouched; an unknown id changes nothing. |
| Inventory.EditRoomItem | assets/app.js:344-355 | The first room with the id is edited as described for EditItem; everything else is untouched; an unknown id changes nothing. |
| Inventory.DeleteRoom | assets/app.js:356-361 | The first room with the id is removed, and the rooms before and after it keep their order. An unknown id changes nothing. |
| Inventory.AddCustomEntry | assets/app.js:409-426 | A quantity at or below 0 returns 0 and changes nothing. A positive one is reported in full, even when the target room no longer exists (then nothing changes). With no target it goes to the draft; with one, only to the first room with the target id. |
| Inventory.AddEntriesTo | assets/app.js:409-426 | Adding the entries to one room, in order: each key's quantity grows by the sum of the entries that have it, a key is present exactly when it was or received a positive amount, every key that received something is a custom key labelled with its caption, and the other labels, the id and the name stay. |
| Inventory.AddEntries | assets/app.js:447-462 | The reported count is the sum of the entries' counts, and a count of 0 means nothing changed. With no target, the draft grows by the entries key by key; with a target and a room with the target id, the rooms' totals grow by them; with a target and no such room, nothing changes although the count is still reported. Ids and names are kept. |
| Inventory.AddEntriesRoute | assets/app.js:409-426 | Where the entries land: with no target, only the draft changes, and exactly as `AddEntriesTo` adds them to it. With a target, the first room with the target id receives them as `AddEntriesTo` adds them, and every other room is unchanged. |
| Inventory.AddPers | assets/app.js:427-471 | Nothing entered is reported exactly when the entries sum to 0, and then nothing changes. With no target and a named draft, every key's total over the rooms grows by the draft's old quantity plus the entries', and a fresh draft keeps the trimmed name. With no target and an unnamed draft, the rooms stay and the entries wait in the draft, although success is reported. With a target, the draft is untouched, and a target that no longer exists means nothing changes. |
| Inventory.AddPersRoute | assets/app.js:427-471 | Where the entries land: with no target, they are added to the draft (as `AddEntriesTo` adds them), which is then merged when something was entered. With a target, only the first room with that id receives them, and every other room is unchanged. |
| Inventory.OpenCustom | assets/app.js:365-381 | A cancelled or empty answer changes nothing. A name whose key matches a room targets the first such room and keeps the draft. Any other name clears the target and starts a fresh draft under that name. |
| Inventory.ExportRow | assets/app.js:508-515 | An item is printed exactly when its quantity is positive, with that quantity and its label text. |
| InventoryProofs.Apply | assets/app.js:549-568 | The wiring of buttons and fields to operations. Only saving, the buttons on saved rooms, custom mode and export can change the saved rooms. Only the list-name field and export can change the list name. |
| InventoryProofs.EventsKeepDraftTrimmed | assets/app.js:565-566 | Every way of naming the draft (the room-name field, saving, custom mode, adding custom entries) leaves its name without whitespace margins, so no user action gives the draft a name with margins. |
| InventoryProofs.MergeKeepsKeysDistinct | assets/app.js:243-260 | Under any runtime, when the draft's name has no whitespace margins, a merge never gives two saved rooms the same key: it folds into the room with the key or appends a room whose key no other room has. |
| InventoryProofs.EventsKeepKeysDistinct | assets/app.js:239-269 | Under any runtime, from a state whose draft name has no whitespace margins, no user action ever leaves two saved rooms with the same key. |
| InventoryProofs.EventsKeepNonNegative | assets/app.js:271-298 | No user action ever stores a negative quantity in a room or in the draft. |
| InventoryProofs.EquivalentNameJoinsRoom | assets/app.js:243-245 | Under `SpacesFoldToSpaces`, a draft whose name has the same key as a saved room's does not add a room when merged. |
| InventoryProofs.MarginsDoNotSplitRooms | assets/app.js:240-245 | Under `SpacesFoldToSpaces`, whitespace around a saved room's name, typed into the draft, does not create a second room. |
| InventoryProofs.TwoSavesOneRoom | assets/app.js:271-298 | Naming the draft and saving outlets twice gives one room with the first draft's id, the trimmed name, and the sum of both quantities. |
| InventoryProofs.CustomRoomFromScratch | assets/app.js:365-381 | Custom mode for a room that does not exist yet, followed by adding frames, creates that room; the frames are printed under their own caption with no kit suffix. |
| InventoryProofs.CustomModeTargetsNamedRoom | assets/app.js:371-373 | Custom mode aimed at an existing room targets that room's id and leaves the draft as it was. The entries reach the first room carrying that id, as `AddEntriesTo` adds them, every other room is unchanged, and the totals over the rooms grow by the entries. The receiving room is the named one whenever no earlier room shares its id. |
| InventoryProofs.SharedIdFeedsEarlierRoom | assets/app.js:371-373 | When two rooms share an id, custom mode named after the second one feeds the first, and the named room is left as it was. |
| InventoryProofs.HalfEditLeavesHiddenZero | assets/app.js:329-330 | Editing a quantity to 0.5 leaves the item stored with quantity 0, and it is not printed. |
| InventoryProofs.ButtonsReachTheirRoom | assets/app.js:340-347 | When a room id contains no ':', its delete and edit buttons act on that room and that key. |
| InventoryProofs.ColonInIdMisroutes | assets/app.js:340 | A room id containing ':' sends its buttons to another room id and another key. |

## Left out

- The service worker is not part of this model: it caches files and holds no list state.
- DOM rendering, messages, focus and form-field resets are left out. They only show the state, which the model keeps in full.
- Service-worker registration, the error overlay, `abrir`/`fechar` and the mobile layout patches are left out: they are browser plumbing with no list state.
- `voltarNormal` and the show/hide of the two form blocks are left out. They change no state.
- Saving to and loading from `localStorage` is left out, because it is I/O. The stored copy is the list name and the rooms, which the model holds as they are. The lemmas about events hold from any state, so they also cover a restored session; the invariants hold from there when the restored rooms already satisfy them.
- `uid()` and the quantity and room-name prompts become parameters, because they are randomness and user input. Since the draws are random, ids are not assumed unique: the model carries no unique-id invariant, and every lookup by id acts on the first room with that id, as `find` does.
- Floating point is modelled as exact reals. `Number(...)` of a field or answer is `Option<real>`, with `None` for NaN and the infinities. `Inventory.Positive` and `Inventory.PersEntries` map `None` to 0, so in the model a non-finite field adds nothing. The page differs as follows:
  - Edits test `isFinite`, so a non-finite answer changes nothing there, as in the model.
  - On the save form, NaN fails the `> 0` test and adds nothing, as in the model. Infinity passes it and would be stored.
  - A custom field is not guarded the same way. `Math.max(0, NaN)` is NaN, and `addCustomEntry` only rejects `qty <= 0`, which NaN is not. So the page would store NaN under the key and count it. An infinite custom field would be stored as Infinity.
- The parsing of a prompt answer is left to the caller, which passes `Some(0.0)` for a cancelled prompt because `Number(null)` is 0. The edit then deletes the item.
- Object key order is left out: maps have none, and it only affects the order of printed rows.
- A custom label copied from a draft that lacks it is modelled as removed, rather than as the value `undefined`. The page prints such an item by its key either way, and JSON drops it on save.
- JavaScript strings are sequences of UTF-16 code units and may hold lone surrogates, whereas a Dafny `char` is a Unicode scalar value. The model's strings are sequences of code points, so names holding a lone surrogate are not modelled.
- `toLowerCase` is modelled one code point at a time, so the context-dependent final sigma is not modelled.
- NFD's canonical reordering of combining marks by combining class is not modelled: `decompose` maps each code point on its own. Marks outside U+0300 to U+036F given in a non-canonical order get different keys in the model, where the page would give them the same key.
- The Unicode decomposition and case tables are a parameter (`RoomKey.Runtime`), not fixed data. Idempotence of the key needs `KeyStable`: the plain space folds to itself and every character the fold emits is its own fold. The margin and whitespace-run lemmas need `SpacesFoldToSpaces`: every whitespace character folds to non-empty whitespace. Real tables meet the second (U+2000 decomposes to U+2002, and NBSP has only a compatibility decomposition), but the model does not check either against Unicode data.
- What a browser's HTML parser does beyond the five entities is left out: it turns CR and CRLF into LF and drops NUL in text, and `Html.Unescape` decodes only the entities `escapeHtml` writes. `escapeHtml` of `null` or `undefined` is the empty string; the model only escapes strings.
- The HTML document, the iframe and the printing done by `exportarPDF` are left out. What each room contributes is modelled by `Inventory.ExportRow`. The early return with no saved room and the reset after printing are `Inventory.Export`.
- Inventory.MirrorCaption: has no contract of its own. It builds the mirror's caption from the two selectors, and its text is only ever used as a custom caption.
- Inventory.PersEntries: has no contract of its own. It lists the thirteen entries in the source's order and is used through AddPers and AddEntries. A non-finite custom field becomes an entry of 0, where the page would add NaN or Infinity.
- Inventory.Positive: an infinite save-form field contributes 0, where the page would store Infinity.

=== FILE: catalog.dfy ===
/** The fixed item catalogue, the custom-item key convention, and how the printed document
    labels each item. */
module Catalog {
  import opened Wrappers

  /** Display names of the catalogue codes. */
  const Registry: map<string, string> := map[
    "ts10" := "Tomada simples 10A", "ts20" := "Tomada simples 20A",
    "td10" := "Tomada dupla 10A",   "td20" := "Tomada dupla 20A",
    "tt10" := "Tomada tripla 10A",  "tt20" := "Tomada tripla 20A",
    "is" := "Interruptor simples",  "idu" := "Interruptor duplo",  "itr" := "Interruptor triplo",
    "isp" := "Interruptor paralelo simples", "idup" := "Interruptor paralelo duplo",
    "itrp" := "Interruptor paralelo triplo",
    "isi" := "Interruptor intermediário simples", "idui" := "Interruptor intermediário duplo",
    "itri" := "Interruptor intermediário triplo",
    "camp" := "Campainha"
  ]

  /** Appended to every catalogue item in the printed document. */
  const KitSuffix: string := " (kit completo bastidor + espelho 4x2)"

  /** Outlet codes by the `style-amperage` string the lookup is indexed with. */
  const SocketTable: map<string, string> := map[
    "simples-10" := "ts10", "simples-20" := "ts20",
    "dupla-10" := "td10",   "dupla-20" := "td20",
    "tripla-10" := "tt10",  "tripla-20" := "tt20"
  ]

  predicate IsStyle(style: string) {
    style == "simples" || style == "dupla" || style == "tripla"
  }

  predicate IsAmp(amp: string) {
    amp == "10" || amp == "20"
  }

  /** `keyTomada`: the outlet code for a socket style and amperage, looked up by the joined
      string `style + "-" + amp`; None when the pair has no entry. */
  function OutletKey(style: string, amp: string): Option<string> {
    var joined := style + "-" + amp;
    if joined in SocketTable then Some(SocketTable[joined]) else None
  }

  /** Splitting `t + "-" + a` at its dash is unambiguous when the right-hand pieces have
      no dash. */
  lemma DashSplit(t: string, a: string, t': string, a': string)
    requires t + "-" + a == t' + "-" + a'
    requires forall i :: 0 <= i < |t'| ==> t'[i] != '-'
    requires forall i :: 0 <= i < |a'| ==> a'[i] != '-'
    ensures t == t' && a == a'
  {
    var k := t' + "-" + a';
    forall i | 0 <= i < |k| && i != |t'| ensures k[i] != '-' {
      if i < |t'| {
        assert k[i] == t'[i];
      } else {
        assert k[i] == a'[i - |t'| - 1];
      }
    }
    assert k[|t|] == '-';
    assert t == k[..|t|] == t';
    assert a == k[|t| + 1..] == a';
  }

  /** An outlet code exists for exactly the three styles times two amperages, its display
      name is built from the two, and it is a catalogue code. */
  lemma OutletKeyExactly(style: string, amp: string)
    ensures OutletKey(style, amp).Some? <==> IsStyle(style) && IsAmp(amp)
    ensures OutletKey(style, amp).Some? ==>
              OutletKey(style, amp).value in Registry
              && Registry[OutletKey(style, amp).value] == "Tomada " + style + " " + amp + "A"
  {
    if OutletKey(style, amp).Some? {
      OutletKeyOnly(style, amp);
    }
    if IsStyle(style) && IsAmp(amp) {
      OutletKeyCovers(style, amp);
    }
  }

  /** Any pair the lookup accepts is one of the six, whatever dashes the style holds: the
      joined string is a table key, and a table key splits at its dash in one way only. */
  lemma OutletKeyOnly(style: string, amp: string)
    requires OutletKey(style, amp).Some?
    ensures IsStyle(style) && IsAmp(amp)
  {
    var joined := style + "-" + amp;
    if joined == "simples-10" { DashSplit(style, amp, "simples", "10"); }
    else if joined == "simples-20" { DashSplit(style, amp, "simples", "20"); }
    else if joined == "dupla-10" { DashSplit(style, amp, "dupla", "10"); }
    else if joined == "dupla-20" { DashSplit(style, amp, "dupla", "20"); }
    else if joined == "tripla-10" { DashSplit(style, amp, "tripla", "10"); }
    else { DashSplit(style, amp, "tripla", "20"); }
  }

  lemma OutletKeyCovers(style: string, amp: string)
    requires IsStyle(style) && IsAmp(amp)
    ensures OutletKey(style, amp).Some?
    ensures OutletKey(style, amp).value in Registry
    ensures Registry[OutletKey(style, amp).value] == "Tomada " + style + " " + amp + "A"
  {
    if style == "simples" && amp == "10" { OutletTs10(); }
    else if style == "simples" { OutletTs20(); }
    else if style == "dupla" && amp == "10" { OutletTd10(); }
    else if style == "dupla" { OutletTd20(); }
    else if amp == "10" { OutletTt10(); }
    else { OutletTt20(); }
  }

  // One lemma per table row: each row's string and map facts are a small proof of their own.
  lemma OutletTs10()
    ensures OutletKey("simples", "10") == Some("ts10")
    ensures "ts10" in Registry && Registry["ts10"] == "Tomada " + "simples" + " " + "10" + "A"
  {
    assert "simples" + "-" + "10" == "simples-10";
  }

  lemma OutletTs20()
    ensures OutletKey("simples", "20") == Some("ts20")
    ensures "ts20" in Registry && Registry["ts20"] == "Tomada " + "simples" + " " + "20" + "A"
  {
    assert "simples" + "-" + "20" == "simples-20";
  }

  lemma OutletTd10()
    ensures OutletKey("dupla", "10") == Some("td10")
    ensures "td10" in Registry && Registry["td10"] == "Tomada " + "dupla" + " " + "10" + "A"
  {
    assert "dupla" + "-" + "10" == "dupla-10";
  }

  lemma OutletTd20()
    ensures OutletKey("dupla", "20") == Some("td20")
    ensures "td20" in Registry && Registry["td20"] == "Tomada " + "dupla" + " " + "20" + "A"
  {
    assert "dupla" + "-" + "20" == "dupla-20";
  }

  lemma OutletTt10()
    ensures OutletKey("tripla", "10") == Some("tt10")
    ensures "tt10" in Registry && Registry["tt10"] == "Tomada " + "tripla" + " " + "10" + "A"
  {
    assert "tripla" + "-" + "10" == "tripla-10";
  }

  lemma OutletTt20()
    ensures OutletKey("tripla", "20") == Some("tt20")
    ensures "tt20" in Registry && Registry["tt20"] == "Tomada " + "tripla" + " " + "20" + "A"
  {
    assert "tripla" + "-" + "20" == "tripla-20";
  }

  // ---- Custom items ----

  /** The tag that marks an item key as a custom item. */
  const CustomTag: string := "c:"

  /** `k.indexOf('c:') === 0`. */
  predicate IsCustom(k: string) {
    |k| >= 2 && k[..2] == CustomTag
  }

  /** `'c:' + label`: the key a custom item with this caption is stored under. */
  function CustomKey(caption: string): (k: string)
    ensures IsCustom(k) && k[2..] == caption
  {
    CustomTag + caption
  }

  /** Different labels give different keys, so the label can be read back from the key. */
  lemma CustomKeyInjective(l1: string, l2: string)
    ensures CustomKey(l1) == CustomKey(l2) <==> l1 == l2
  {
    if CustomKey(l1) == CustomKey(l2) {
      assert l1 == CustomKey(l1)[2..];
    }
  }

  // ---- Labels in the printed document ----

  /** The text printed for an item key in a room with the given custom labels: a custom key
      shows its label verbatim (the key itself when the label is missing or empty), a
      catalogue code shows its display name (the code itself when unknown) plus the kit
      suffix. */
  function ExportText(labels: map<string, string>, k: string): (text: string)
    ensures !IsCustom(k) ==> |text| >= |KitSuffix| && text[|text| - |KitSuffix|..] == KitSuffix
    ensures !IsCustom(k) && k in Registry ==> text == Registry[k] + KitSuffix
    ensures !IsCustom(k) && k !in Registry ==> text == k + KitSuffix
    ensures IsCustom(k) && k in labels && labels[k] != "" ==> text == labels[k]
    ensures IsCustom(k) && (k !in labels || labels[k] == "") ==> text == k
  {
    var isCustom := IsCustom(k);
    var shown := if isCustom then (if k in labels && labels[k] != "" then labels[k] else k)
                 else (if k in Registry then Registry[k] else k);
    if isCustom then shown else shown + KitSuffix
  }

  /** A custom item stored with its own label prints exactly that label, with no suffix. */
  lemma CustomPrintsVerbatim(labels: map<string, string>, caption: string)
    requires caption != "" && CustomKey(caption) in labels && labels[CustomKey(caption)] == caption
    ensures ExportText(labels, CustomKey(caption)) == caption
  {
  }
}

/** The `data-*-item` attribute of a room's item buttons packs the room id and the item key
    as `id + ':' + key`; the click handler unpacks it with `split(':')`, taking the first
    part as the id and re-joining the rest as the key. */
module ButtonData {

  /** `s.split(':')`. */
  function Split(s: string): (parts: seq<string>)
    ensures |parts| >= 1
    ensures forall i :: 0 <= i < |parts| ==> ':' !in parts[i]
    ensures Join(parts) == s
  {
    if s == [] then [[]]
    else
      var rest := Split(s[1..]);
      if s[0] == ':' then
        assert Join([[]] + rest) == [] + ":" + Join(rest);
        [[]] + rest
      else
        var parts := [[s[0]] + rest[0]] + rest[1..];
        assert parts[1..] == rest[1..];
        assert s == [s[0]] + s[1..];
        parts
  }

  /** `parts.join(':')`. */
  function Join(parts: seq<string>): string {
    if parts == [] then []
    else if |parts| == 1 then parts[0]
    else parts[0] + ":" + Join(parts[1..])
  }

  function Pack(id: string, key: string): string {
    id + ":" + key
  }

  /** `parts[0]` and `parts.slice(1).join(':')`. */
  function Unpack(data: string): (string, string) {
    var parts := Split(data);
    (parts[0], Join(parts[1..]))
  }

  lemma {:induction false} SplitAfterPlainPrefix(id: string, key: string)
    requires ':' !in id
    ensures Split(id + ":" + key) == [id] + Split(key)
  {
    if id == [] {
      assert id + ":" + key == [':'] + key;
      assert ([':'] + key)[1..] == key;
    } else {
      assert (id + ":" + key)[1..] == id[1..] + ":" + key;
      SplitAfterPlainPrefix(id[1..], key);
      assert id == [id[0]] + id[1..];
    }
  }

  /** The button data unpacks to the room id and key it was packed from exactly when the id
      contains no colon; keys may contain colons (custom keys always do). */
  lemma UnpackPack(id: string, key: string)
    ensures Unpack(Pack(id, key)) == (id, key) <==> ':' !in id
  {
    if ':' !in id {
      SplitAfterPlainPrefix(id, key);
      assert Split(Pack(id, key))[1..] == Split(key);
    } else {
      assert ':' !in Split(Pack(id, key))[0];
    }
  }
}

=== FILE: html.dfy ===
/** `escapeHtml`: the five HTML-significant characters replaced by entities, so that room
    names and labels can be placed in the printed document as text. */
module Html {

  function Entity(c: char): string {
    match c
    case '&' => "&amp;"
    case '<' => "&lt;"
    case '>' => "&gt;"
    case '"' => "&quot;"
    case '\'' => "&#39;"
    case _ => [c]
  }

  /** Characters that must not appear raw in escaped text. */
  predicate Markup(c: char) {
    c == '<' || c == '>' || c == '"' || c == '\''
  }

  predicate HasPrefix(s: string, p: string) {
    |p| <= |s| && s[..|p|] == p
  }

  /** The escaped text contains no tag or quote character at all. */
  function Escape(s: string): (r: string)
    ensures forall i :: 0 <= i < |r| ==> !Markup(r[i])
  {
    if s == [] then [] else Entity(s[0]) + Escape(s[1..])
  }

  /** What a browser's parser recovers from the five entities `Escape` writes. */
  function Unescape(s: string): string
    decreases |s|
  {
    if s == [] then []
    else if HasPrefix(s, "&amp;") then "&" + Unescape(s[5..])
    else if HasPrefix(s, "&lt;") then "<" + Unescape(s[4..])
    else if HasPrefix(s, "&gt;") then ">" + Unescape(s[4..])
    else if HasPrefix(s, "&quot;") then "\"" + Unescape(s[6..])
    else if HasPrefix(s, "&#39;") then "'" + Unescape(s[5..])
    else [s[0]] + Unescape(s[1..])
  }

  /** Each entity is recognised as itself and not as an earlier alternative. */
  lemma UnescapeEntity(c: char, t: string)
    ensures Unescape(Entity(c) + t) == [c] + Unescape(t)
  {
    var e := Entity(c) + t;
    if c == '&' {
      assert e[..5] == "&amp;" && e[5..] == t;
    } else if c == '<' {
      UnescapeLt(t);
    } else if c == '>' {
      UnescapeGt(t);
    } else if c == '"' {
      UnescapeQuot(t);
    } else if c == '\'' {
      UnescapeApos(t);
    } else {
      assert e[0] == c && e[1..] == t;
      assert !HasPrefix(e, "&amp;") && !HasPrefix(e, "&lt;") && !HasPrefix(e, "&gt;");
      assert !HasPrefix(e, "&quot;") && !HasPrefix(e, "&#39;");
    }
  }

  lemma UnescapeLt(t: string)
    ensures Unescape("&lt;" + t) == "<" + Unescape(t)
  {
    var e := "&lt;" + t;
    assert e[1] == 'l';
    assert !HasPrefix(e, "&amp;");
    assert e[..4] == "&lt;" && e[4..] == t;
  }

  lemma UnescapeGt(t: string)
    ensures Unescape("&gt;" + t) == ">" + Unescape(t)
  {
    var e := "&gt;" + t;
    assert e[1] == 'g';
    assert !HasPrefix(e, "&amp;") && !HasPrefix(e, "&lt;");
    assert e[..4] == "&gt;" && e[4..] == t;
  }

  lemma UnescapeQuot(t: string)
    ensures Unescape("&quot;" + t) == "\"" + Unescape(t)
  {
    var e := "&quot;" + t;
    assert e[1] == 'q';
    assert !HasPrefix(e, "&amp;") && !HasPrefix(e, "&lt;") && !HasPrefix(e, "&gt;");
    assert e[..6] == "&quot;" && e[6..] == t;
  }

  lemma UnescapeApos(t: string)
    ensures Unescape("&#39;" + t) == "'" + Unescape(t)
  {
    var e := "&#39;" + t;
    assert e[1] == '#';
    assert !HasPrefix(e, "&amp;") && !HasPrefix(e, "&lt;") && !HasPrefix(e, "&gt;");
    assert !HasPrefix(e, "&quot;");
    assert e[..5] == "&#39;" && e[5..] == t;
  }

  /** Escaping loses nothing: the parsed text is the original. */
  lemma {:induction false} EscapeRoundTrip(s: string)
    ensures Unescape(Escape(s)) == s
  {
    if s != [] {
      UnescapeEntity(s[0], Escape(s[1..]));
      EscapeRoundTrip(s[1..]);
      assert s == [s[0]] + s[1..];
    }
  }
}

=== FILE: invariants.dfy ===
/** What holds of the inventory over whole sessions: every user action as an event, the
    invariants every event keeps, and a few walks through the page from boot. */
module InventoryProofs {
  import opened Wrappers
  import opened JsText
  import opened RoomKey
  import Catalog
  import ButtonData
  import opened Inventory

  /** One user action. Buttons on saved rooms carry their `id:key` data attribute; answers
      to prompts arrive parsed. */
  datatype Event =
    | SaveItem(form: Form)
    | NewDraft
    | TypeRoomName(text: string)
    | TypeListName(text: string)
    | DeleteDraft(key: string)
    | EditDraft(key: string, answer: Option<real>)
    | DeleteSaved(data: string)
    | EditSaved(data: string, answer: Option<real>)
    | DropRoom(id: string)
    | OpenCustomMode(reply: Option<string>)
    | AddCustomItems(pers: PersForm)
    | ExportList

  /** The state after an event; `id1` and `id2` are the ids `uid()` would draw. Exporting
      prints the list and then resets everything, unless there is no saved room. */
  function Apply(u: Runtime, s: State, e: Event, id1: string, id2: string): (r: State)
    // Only the save, item and room buttons, custom mode and export touch the saved rooms;
    // only the list-name field and export touch the list name.
    ensures r.rooms != s.rooms ==>
              e.SaveItem? || e.DeleteSaved? || e.EditSaved? || e.DropRoom? || e.AddCustomItems? || e.ExportList?
    ensures r.listName != s.listName ==> e.TypeListName? || e.ExportList?
  {
    match e
    case SaveItem(f) => SaveDraft(u, s, f, id1, id2).state
    case NewDraft => StartDraft(s, id1)
    case TypeRoomName(t) => RenameDraft(s, t)
    case TypeListName(t) => SetListName(s, t)
    case DeleteDraft(k) => DeleteDraftItem(s, k)
    case EditDraft(k, a) => EditDraftItem(s, k, a)
    case DeleteSaved(d) => DeleteRoomItem(s, ButtonData.Unpack(d).0, ButtonData.Unpack(d).1)
    case EditSaved(d, a) => EditRoomItem(s, ButtonData.Unpack(d).0, ButtonData.Unpack(d).1, a)
    case DropRoom(id) => DeleteRoom(s, id)
    case OpenCustomMode(a) => OpenCustom(u, s, a, id1)
    case AddCustomItems(p) => AddPers(u, s, p, id1, id2).state
    case ExportList => Export(s, id1)
  }

  // ---- No two rooms share a key ----

  /** No two saved rooms have the same sanitized name. */
  ghost predicate DistinctKeys(u: Runtime, rooms: seq<Room>) {
    forall i, j {:trigger Sanitize(u, rooms[i].name), Sanitize(u, rooms[j].name)} ::
      0 <= i < j < |rooms| ==> Sanitize(u, rooms[i].name) != Sanitize(u, rooms[j].name)
  }

  /** Same rooms in the same places, as far as names go. */
  ghost predicate SameNames(a: seq<Room>, b: seq<Room>) {
    |a| == |b| && forall i :: 0 <= i < |a| ==> a[i].name == b[i].name
  }

  lemma SameNamesKeepKeys(u: Runtime, a: seq<Room>, b: seq<Room>)
    requires SameNames(a, b) && DistinctKeys(u, a)
    ensures DistinctKeys(u, b)
  {
    forall i, j | 0 <= i < j < |b| ensures Sanitize(u, b[i].name) != Sanitize(u, b[j].name) {
      assert a[i].name == b[i].name && a[j].name == b[j].name;
    }
  }

  /** A merge never creates a second room with the same key: it either folds into the room
      that has the key or appends a room whose key no other room has. The draft's name has
      no whitespace margins (every event keeps it so, see `EventsKeepDraftTrimmed`), so the
      key the merge looks up is the key of the room it appends. */
  lemma MergeKeepsKeysDistinct(u: Runtime, s: State, keep: bool, id1: string, id2: string)
    requires DistinctKeys(u, s.rooms) && NoEdgeSpace(s.draft.name)
    ensures DistinctKeys(u, Merge(u, s, keep, id1, id2).state.rooms)
  {
    var r := Merge(u, s, keep, id1, id2).state;
    if Trim(s.draft.name) != [] {
      var key := Sanitize(u, Trim(s.draft.name));
      MergeShape(u, s, keep, id1, id2);
      match IndexOfKey(u, s.rooms, key)
      case Some(i) =>
        ReplaceKeepsNames(s.rooms, r.rooms, i);
        SameNamesKeepKeys(u, s.rooms, r.rooms);
      case None =>
        TrimFixed(s.draft.name);
        assert r.rooms == s.rooms + [r.rooms[|s.rooms|]];
        AppendKeepsKeysDistinct(u, s.rooms, r.rooms[|s.rooms|]);
    }
  }

  lemma ReplaceKeepsNames(a: seq<Room>, b: seq<Room>, i: int)
    requires |a| == |b| && 0 <= i < |a| && a[i].name == b[i].name
    requires forall j :: 0 <= j < |a| && j != i ==> b[j] == a[j]
    ensures SameNames(a, b)
  {
  }

  lemma AppendKeepsKeysDistinct(u: Runtime, rooms: seq<Room>, room: Room)
    requires DistinctKeys(u, rooms) && NoRoomWithKey(u, rooms, Sanitize(u, room.name))
    ensures DistinctKeys(u, rooms + [room])
  {
    var r := rooms + [room];
    forall i, j | 0 <= i < j < |r| ensures Sanitize(u, r[i].name) != Sanitize(u, r[j].name) {
      assert r[i] == rooms[i];
      if j < |rooms| {
        assert r[j] == rooms[j];
      }
    }
  }

  lemma DeleteRoomKeepsKeysDistinct(u: Runtime, s: State, id: string)
    requires DistinctKeys(u, s.rooms)
    ensures DistinctKeys(u, DeleteRoom(s, id).rooms)
  {
    var r := DeleteRoom(s, id);
    match IndexOfId(s.rooms, id)
    case None =>
    case Some(x) =>
      forall i, j | 0 <= i < j < |r.rooms| ensures Sanitize(u, r.rooms[i].name) != Sanitize(u, r.rooms[j].name) {
        var i' := if i < x then i else i + 1;
        var j' := if j < x then j else j + 1;
        assert r.rooms[i] == s.rooms[i'] && r.rooms[j] == s.rooms[j'];
      }
  }

  lemma UpdateRoomKeepsNames(s: State, id: string, change: Room -> Room)
    requires forall room: Room :: change(room).name == room.name
    ensures SameNames(s.rooms, UpdateRoom(s, id, change).rooms)
  {
    var r := UpdateRoom(s, id, change);
    match IndexOfId(s.rooms, id)
    case None =>
    case Some(i) =>
      forall j | 0 <= j < |s.rooms| ensures r.rooms[j].name == s.rooms[j].name {
        if j == i {
          assert r.rooms[i] == change(s.rooms[i]);
        }
      }
  }

  lemma AddPersKeepsKeysDistinct(u: Runtime, s: State, p: PersForm, id1: string, id2: string)
    requires DistinctKeys(u, s.rooms) && NoEdgeSpace(s.draft.name)
    ensures DistinctKeys(u, AddPers(u, s, p, id1, id2).state.rooms)
  {
    var a := AddEntries(s, PersEntries(p));
    assert SameNames(s.rooms, a.state.rooms);
    SameNamesKeepKeys(u, s.rooms, a.state.rooms);
    MergeKeepsKeysDistinct(u, a.state, true, id1, id2);
  }

  lemma SaveKeepsKeysDistinct(u: Runtime, s: State, f: Form, id1: string, id2: string)
    requires DistinctKeys(u, s.rooms) && NoEdgeSpace(s.draft.name)
    ensures DistinctKeys(u, SaveDraft(u, s, f, id1, id2).state.rooms)
  {
    if Trim(s.draft.name) != [] {
      var t := Accumulate(s.draft.items, FormLines(f));
      var s1 := s.(draft := s.draft.(items := t.items));
      MergeKeepsKeysDistinct(u, s1, true, id1, id2);
    }
  }

  lemma DeleteSavedKeepsKeysDistinct(u: Runtime, s: State, id: string, k: string)
    requires DistinctKeys(u, s.rooms)
    ensures DistinctKeys(u, DeleteRoomItem(s, id, k).rooms)
  {
    UpdateRoomKeepsNames(s, id, room => DeleteItem(room, k));
    SameNamesKeepKeys(u, s.rooms, DeleteRoomItem(s, id, k).rooms);
  }

  lemma EditSavedKeepsKeysDistinct(u: Runtime, s: State, id: string, k: string, a: Option<real>)
    requires DistinctKeys(u, s.rooms)
    ensures DistinctKeys(u, EditRoomItem(s, id, k, a).rooms)
  {
    UpdateRoomKeepsNames(s, id, room => EditItem(room, k, a));
    SameNamesKeepKeys(u, s.rooms, EditRoomItem(s, id, k, a).rooms);
  }

  /** Every event leaves the draft's name without whitespace margins: each way of naming the
      draft trims the name. */
  lemma EventsKeepDraftTrimmed(u: Runtime, s: State, e: Event, id1: string, id2: string)
    requires NoEdgeSpace(s.draft.name)
    ensures NoEdgeSpace(Apply(u, s, e, id1, id2).draft.name)
  {
    if e.SaveItem? || e.OpenCustomMode? || e.AddCustomItems? {
      NamingEventsKeepDraftTrimmed(u, s, e, id1, id2);
    }
  }

  lemma NamingEventsKeepDraftTrimmed(u: Runtime, s: State, e: Event, id1: string, id2: string)
    requires NoEdgeSpace(s.draft.name) && (e.SaveItem? || e.OpenCustomMode? || e.AddCustomItems?)
    ensures NoEdgeSpace(Apply(u, s, e, id1, id2).draft.name)
  {
    match e
    case SaveItem(f) => SaveKeepsDraftTrimmed(u, s, f, id1, id2);
    case OpenCustomMode(a) => OpenCustomKeepsDraftTrimmed(u, s, a, id1);
    case AddCustomItems(p) => AddPersKeepsDraftTrimmed(u, s, p, id1, id2);
  }

  lemma SaveKeepsDraftTrimmed(u: Runtime, s: State, f: Form, id1: string, id2: string)
    requires NoEdgeSpace(s.draft.name)
    ensures NoEdgeSpace(SaveDraft(u, s, f, id1, id2).state.draft.name)
  {
    var r := SaveDraft(u, s, f, id1, id2);
    if r.status == Saved {
      assert r.state.draft.name == Trim(s.draft.name);
    }
  }

  lemma OpenCustomKeepsDraftTrimmed(u: Runtime, s: State, a: Option<string>, id: string)
    requires NoEdgeSpace(s.draft.name)
    ensures NoEdgeSpace(OpenCustom(u, s, a, id).draft.name)
  {
    if a.Some? && a.value != "" {
      var key := Sanitize(u, Trim(a.value));
      if IndexOfKey(u, s.rooms, key).None? {
        assert OpenCustom(u, s, a, id).draft.name == Trim(a.value);
      }
    }
  }

  lemma AddPersKeepsDraftTrimmed(u: Runtime, s: State, p: PersForm, id1: string, id2: string)
    requires NoEdgeSpace(s.draft.name)
    ensures NoEdgeSpace(AddPers(u, s, p, id1, id2).state.draft.name)
  {
    AddPersRoute(u, s, p, id1, id2);
    var d := s.(draft := AddEntriesTo(s.draft, PersEntries(p)));
    if !HasTarget(s) && Trim(d.draft.name) != [] {
      assert Merge(u, d, true, id1, id2).state.draft.name == Trim(d.draft.name);
    }
  }

  /** Every event keeps the saved rooms' keys distinct, whatever ids are drawn and whatever
      the runtime's Unicode tables. */
  lemma EventsKeepKeysDistinct(u: Runtime, s: State, e: Event, id1: string, id2: string)
    requires DistinctKeys(u, s.rooms) && NoEdgeSpace(s.draft.name)
    ensures DistinctKeys(u, Apply(u, s, e, id1, id2).rooms)
  {
    if e.SaveItem? || e.AddCustomItems? {
      MergingEventsKeepKeysDistinct(u, s, e, id1, id2);
    } else if e.DeleteSaved? || e.EditSaved? || e.DropRoom? {
      RoomButtonsKeepKeysDistinct(u, s, e, id1, id2);
    }
  }

  lemma MergingEventsKeepKeysDistinct(u: Runtime, s: State, e: Event, id1: string, id2: string)
    requires DistinctKeys(u, s.rooms) && NoEdgeSpace(s.draft.name)
    requires e.SaveItem? || e.AddCustomItems?
    ensures DistinctKeys(u, Apply(u, s, e, id1, id2).rooms)
  {
    match e
    case SaveItem(f) => SaveKeepsKeysDistinct(u, s, f, id1, id2);
    case AddCustomItems(p) => AddPersKeepsKeysDistinct(u, s, p, id1, id2);
  }

  lemma RoomButtonsKeepKeysDistinct(u: Runtime, s: State, e: Event, id1: string, id2: string)
    requires DistinctKeys(u, s.rooms)
    requires e.DeleteSaved? || e.EditSaved? || e.DropRoom?
    ensures DistinctKeys(u, Apply(u, s, e, id1, id2).rooms)
  {
    match e
    case DeleteSaved(d) => DeleteSavedKeepsKeysDistinct(u, s, ButtonData.Unpack(d).0, ButtonData.Unpack(d).1);
    case EditSaved(d, a) => EditSavedKeepsKeysDistinct(u, s, ButtonData.Unpack(d).0, ButtonData.Unpack(d).1, a);
    case DropRoom(id) => DeleteRoomKeepsKeysDistinct(u, s, id);
  }

  // ---- No quantity is negative ----

  ghost predicate NonNegativeItems(room: Room) {
    forall k :: k in room.items ==> room.items[k] >= 0.0
  }

  /** Every stored quantity, in the draft and in the saved rooms, is at least zero. */
  ghost predicate NonNegative(s: State) {
    NonNegativeItems(s.draft) && forall i :: 0 <= i < |s.rooms| ==> NonNegativeItems(s.rooms[i])
  }

  lemma MergeKeepsNonNegative(u: Runtime, s: State, keep: bool, id1: string, id2: string)
    requires NonNegative(s)
    ensures NonNegative(Merge(u, s, keep, id1, id2).state)
  {
    var r := Merge(u, s, keep, id1, id2).state;
    if Trim(s.draft.name) != [] {
      var key := Sanitize(u, Trim(s.draft.name));
      match IndexOfKey(u, s.rooms, key)
      case Some(i) =>
        FoldKeepsNonNegative(s.rooms[i], s.draft);
        ReplaceKeepsNonNegative(s.rooms, r.rooms, i);
      case None =>
        assert r.rooms == s.rooms + [NewRoom(s.draft, id1)];
    }
  }

  lemma FoldKeepsNonNegative(room: Room, draft: Room)
    requires NonNegativeItems(room) && NonNegativeItems(draft)
    ensures NonNegativeItems(FoldDraft(room, draft))
  {
    var folded := FoldDraft(room, draft);
    forall k | k in folded.items ensures folded.items[k] >= 0.0 {
      if k in draft.items {
        assert Get0(room.items, k) >= 0.0;
      }
    }
  }

  lemma ReplaceKeepsNonNegative(a: seq<Room>, b: seq<Room>, i: int)
    requires |a| == |b| && 0 <= i < |a| && NonNegativeItems(b[i])
    requires forall j :: 0 <= j < |a| && j != i ==> b[j] == a[j]
    requires forall j :: 0 <= j < |a| ==> NonNegativeItems(a[j])
    ensures forall j :: 0 <= j < |b| ==> NonNegativeItems(b[j])
  {
    forall j | 0 <= j < |b| ensures NonNegativeItems(b[j]) {
      if j != i {
        assert b[j] == a[j];
      }
    }
  }

  lemma AccumulateKeepsNonNegative(items: Items, lines: seq<Line>)
    requires forall k :: k in items ==> items[k] >= 0.0
    ensures var t := Accumulate(items, lines);
            forall k :: k in t.items ==> t.items[k] >= 0.0
  {
    var t := Accumulate(items, lines);
    forall k | k in t.items ensures t.items[k] >= 0.0 {
      assert Get0(items, k) >= 0.0;
    }
  }

  lemma EditKeepsNonNegative(room: Room, k: string, answer: Option<real>)
    requires NonNegativeItems(room)
    ensures NonNegativeItems(EditItem(room, k, answer))
  {
    var r := EditItem(room, k, answer);
    if answer.Some? && answer.value > 0.0 {
      forall k' | k' in r.items ensures r.items[k'] >= 0.0 {
        if k' == k {
          assert r.items[k] + 1.0 > answer.value && Whole(r.items[k]);
          assert r.items[k] >= 0.0;
        }
      }
    }
  }

  lemma AddCustomKeepsNonNegative(room: Room, caption: string, qty: real)
    requires NonNegativeItems(room) && qty > 0.0
    ensures NonNegativeItems(AddCustom(room, caption, qty))
  {
    var r := AddCustom(room, caption, qty);
    var key := Catalog.CustomKey(caption);
    forall k | k in r.items ensures r.items[k] >= 0.0 {
      if k == key {
        assert Get0(room.items, k) >= 0.0;
      }
    }
  }

  lemma UpdateRoomKeepsNonNegative(s: State, id: string, change: Room -> Room)
    requires NonNegative(s)
    requires forall room: Room :: NonNegativeItems(room) ==> NonNegativeItems(change(room))
    ensures NonNegative(UpdateRoom(s, id, change))
  {
    var r := UpdateRoom(s, id, change);
    match IndexOfId(s.rooms, id)
    case None =>
    case Some(i) =>
      forall j | 0 <= j < |r.rooms| ensures NonNegativeItems(r.rooms[j]) {
        if j == i {
          assert r.rooms[i] == change(s.rooms[i]);
        } else {
          assert r.rooms[j] == s.rooms[j];
        }
      }
  }

  lemma AddEntryKeepsNonNegative(s: State, e: Entry)
    requires NonNegative(s)
    ensures NonNegative(AddCustomEntry(s, e.caption, e.qty).state)
  {
    if e.qty > 0.0 {
      if HasTarget(s) {
        forall room: Room | NonNegativeItems(room)
          ensures NonNegativeItems(AddCustom(room, e.caption, e.qty))
        {
          AddCustomKeepsNonNegative(room, e.caption, e.qty);
        }
        UpdateRoomKeepsNonNegative(s, s.target.value, (room: Room) => AddCustom(room, e.caption, e.qty));
      } else {
        AddCustomKeepsNonNegative(s.draft, e.caption, e.qty);
      }
    }
  }

  lemma {:induction false} AddEntriesKeepNonNegative(s: State, entries: seq<Entry>)
    requires NonNegative(s)
    ensures NonNegative(AddEntries(s, entries).state)
    decreases |entries|
  {
    if entries != [] {
      AddEntryKeepsNonNegative(s, entries[0]);
      AddEntriesKeepNonNegative(AddCustomEntry(s, entries[0].caption, entries[0].qty).state, entries[1..]);
    }
  }

  lemma DeleteRoomKeepsNonNegative(s: State, id: string)
    requires NonNegative(s)
    ensures NonNegative(DeleteRoom(s, id))
  {
    var r := DeleteRoom(s, id);
    match IndexOfId(s.rooms, id)
    case None =>
    case Some(x) =>
      forall j | 0 <= j < |r.rooms| ensures NonNegativeItems(r.rooms[j]) {
        assert r.rooms[j] == s.rooms[if j < x then j else j + 1];
      }
  }

  lemma SaveKeepsNonNegative(u: Runtime, s: State, f: Form, id1: string, id2: string)
    requires NonNegative(s)
    ensures NonNegative(SaveDraft(u, s, f, id1, id2).state)
  {
    if Trim(s.draft.name) != [] {
      var t := Accumulate(s.draft.items, FormLines(f));
      AccumulateKeepsNonNegative(s.draft.items, FormLines(f));
      MergeKeepsNonNegative(u, s.(draft := s.draft.(items := t.items)), true, id1, id2);
    }
  }

  lemma AddPersKeepsNonNegative(u: Runtime, s: State, p: PersForm, id1: string, id2: string)
    requires NonNegative(s)
    ensures NonNegative(AddPers(u, s, p, id1, id2).state)
  {
    AddEntriesKeepNonNegative(s, PersEntries(p));
    MergeKeepsNonNegative(u, AddEntries(s, PersEntries(p)).state, true, id1, id2);
  }

  lemma EditSavedKeepsNonNegative(s: State, id: string, k: string, a: Option<real>)
    requires NonNegative(s)
    ensures NonNegative(EditRoomItem(s, id, k, a))
  {
    forall room: Room | NonNegativeItems(room)
      ensures NonNegativeItems(EditItem(room, k, a))
    {
      EditKeepsNonNegative(room, k, a);
    }
    UpdateRoomKeepsNonNegative(s, id, room => EditItem(room, k, a));
  }

  lemma DeleteSavedKeepsNonNegative(s: State, id: string, k: string)
    requires NonNegative(s)
    ensures NonNegative(DeleteRoomItem(s, id, k))
  {
    UpdateRoomKeepsNonNegative(s, id, room => DeleteItem(room, k));
  }

  /** Every event keeps every stored quantity at zero or above. */
  lemma EventsKeepNonNegative(u: Runtime, s: State, e: Event, id1: string, id2: string)
    requires NonNegative(s)
    ensures NonNegative(Apply(u, s, e, id1, id2))
  {
    if e.SaveItem? || e.AddCustomItems? {
      MergingEventsKeepNonNegative(u, s, e, id1, id2);
    } else if e.EditDraft? || e.DeleteSaved? || e.EditSaved? || e.DropRoom? {
      ItemButtonsKeepNonNegative(u, s, e, id1, id2);
    }
  }

  lemma MergingEventsKeepNonNegative(u: Runtime, s: State, e: Event, id1: string, id2: string)
    requires NonNegative(s) && (e.SaveItem? || e.AddCustomItems?)
    ensures NonNegative(Apply(u, s, e, id1, id2))
  {
    match e
    case SaveItem(f) => SaveKeepsNonNegative(u, s, f, id1, id2);
    case AddCustomItems(p) => AddPersKeepsNonNegative(u, s, p, id1, id2);
  }

  lemma ItemButtonsKeepNonNegative(u: Runtime, s: State, e: Event, id1: string, id2: string)
    requires NonNegative(s) && (e.EditDraft? || e.DeleteSaved? || e.EditSaved? || e.DropRoom?)
    ensures NonNegative(Apply(u, s, e, id1, id2))
  {
    match e
    case EditDraft(k, a) => EditKeepsNonNegative(s.draft, k, a);
    case DeleteSaved(d) => DeleteSavedKeepsNonNegative(s, ButtonData.Unpack(d).0, ButtonData.Unpack(d).1);
    case EditSaved(d, a) => EditSavedKeepsNonNegative(s, ButtonData.Unpack(d).0, ButtonData.Unpack(d).1, a);
    case DropRoom(id) => DeleteRoomKeepsNonNegative(s, id);
  }

  // ---- Same room, other spelling ----

  /** A draft whose name sanitizes like a saved room's joins that room (or the first room
      with that key) instead of creating another one. */
  lemma EquivalentNameJoinsRoom(u: Runtime, s: State, i: int, keep: bool, id1: string, id2: string)
    requires SpacesFoldToSpaces(u) && 0 <= i < |s.rooms|
    requires Sanitize(u, s.draft.name) == Sanitize(u, s.rooms[i].name)
    ensures |Merge(u, s, keep, id1, id2).state.rooms| == |s.rooms|
  {
    var key := Sanitize(u, Trim(s.draft.name));
    SanitizeOfTrim(u, s.draft.name);
    assert Sanitize(u, s.rooms[i].name) == key;
    assert !NoRoomWithKey(u, s.rooms, key);
    var j := IndexOfKey(u, s.rooms, key).value;
    assert FirstWithKey(u, s.rooms, j, key);
  }

  /** Whitespace around a room's name does not make it a different room. */
  lemma MarginsDoNotSplitRooms(u: Runtime, s: State, i: int, w1: string, w2: string, keep: bool, id1: string, id2: string)
    requires SpacesFoldToSpaces(u) && 0 <= i < |s.rooms| && AllSpace(w1) && AllSpace(w2)
    requires s.draft.name == w1 + s.rooms[i].name + w2
    ensures |Merge(u, s, keep, id1, id2).state.rooms| == |s.rooms|
  {
    SanitizeIgnoresMargins(u, w1, s.rooms[i].name, w2);
    EquivalentNameJoinsRoom(u, s, i, keep, id1, id2);
  }

  // ---- Walks from boot ----

  /** A form with only outlets filled in; the other selectors keep their defaults. */
  function OutletsOnly(style: string, amp: string, qty: real): Form {
    Form(style, amp, Some(qty), "is", None, "isp", None, "isi", None, None)
  }

  /** Naming the draft and saving simple 10A outlets twice: one room, holding both
      quantities, and a fresh draft that keeps the name. */
  lemma TwoSavesOneRoom(u: Runtime, text: string, q1: real, q2: real, d0: string, r1: string, d1: string, r2: string, d2: string)
    requires Trim(text) != [] && d0 != "" && q1 > 0.0 && q2 > 0.0
    ensures var s1 := RenameDraft(Initial(d0), text);
            var a := SaveDraft(u, s1, OutletsOnly("simples", "10", q1), r1, d1);
            var b := SaveDraft(u, a.state, OutletsOnly("simples", "10", q2), r2, d2);
            && a.status == Saved && b.status == Saved
            && |b.state.rooms| == 1
            && b.state.rooms[0].id == d0 && b.state.rooms[0].name == Trim(text)
            && Get0(b.state.rooms[0].items, "ts10") == q1 + q2
            && b.state.draft == EmptyRoom(d2, Trim(text))
  {
    TrimFixed(Trim(text));
    var s1 := RenameDraft(Initial(d0), text);
    OutletsContribution(q1);
    OutletsContribution(q2);
    SaveIntoNothing(u, s1, OutletsOnly("simples", "10", q1), r1, d1);
    var a := SaveDraft(u, s1, OutletsOnly("simples", "10", q1), r1, d1);
    SaveIntoSameRoom(u, a.state, OutletsOnly("simples", "10", q2), r2, d2);
  }

  /** The first save creates the first room. */
  lemma SaveIntoNothing(u: Runtime, s: State, f: Form, id1: string, id2: string)
    requires s.rooms == [] && s.draft.items == map[] && s.draft.id != ""
    requires Trim(s.draft.name) == s.draft.name != [] && Total(FormLines(f)) > 0.0
    ensures var r := SaveDraft(u, s, f, id1, id2);
            && r.status == Saved && |r.state.rooms| == 1
            && r.state.rooms[0].id == s.draft.id && r.state.rooms[0].name == s.draft.name
            && r.state.draft == EmptyRoom(id2, s.draft.name)
            && forall k :: Get0(r.state.rooms[0].items, k) == Contribution(FormLines(f), k)
  {
    var r := SaveDraft(u, s, f, id1, id2);
    assert NoRoomWithKey(u, s.rooms, Sanitize(u, Trim(s.draft.name)));
    forall k ensures Get0(r.state.rooms[0].items, k) == Contribution(FormLines(f), k) {
      assert RoomsQty(r.state.rooms, k) == Contribution(FormLines(f), k);
    }
  }

  /** A second save under the same name adds to the one room there is. */
  lemma SaveIntoSameRoom(u: Runtime, s: State, f: Form, id1: string, id2: string)
    requires |s.rooms| == 1 && s.draft.items == map[] && Trim(s.draft.name) == s.draft.name == s.rooms[0].name != []
    requires Total(FormLines(f)) > 0.0
    ensures var r := SaveDraft(u, s, f, id1, id2);
            && r.status == Saved && |r.state.rooms| == 1
            && r.state.rooms[0].id == s.rooms[0].id && r.state.rooms[0].name == s.rooms[0].name
            && r.state.draft == EmptyRoom(id2, s.draft.name)
            && forall k :: Get0(r.state.rooms[0].items, k) == Get0(s.rooms[0].items, k) + Contribution(FormLines(f), k)
  {
    var r := SaveDraft(u, s, f, id1, id2);
    assert FirstWithKey(u, s.rooms, 0, Sanitize(u, Trim(s.draft.name)));
    forall k ensures Get0(r.state.rooms[0].items, k) == Get0(s.rooms[0].items, k) + Contribution(FormLines(f), k) {
      assert RoomsQty(r.state.rooms, k) == RoomsQty(s.rooms, k) + Contribution(FormLines(f), k);
    }
  }

  /** The outlet-only form adds its quantity to "ts10" and to nothing else. */
  lemma OutletsContribution(qty: real)
    requires qty > 0.0
    ensures Total(FormLines(OutletsOnly("simples", "10", qty))) == qty
    ensures Contribution(FormLines(OutletsOnly("simples", "10", qty)), "ts10") == qty
  {
    assert "simples" + "-" + "10" == "simples-10";
    assert SocketCode("simples", "10") == "ts10";
    var lines := FormLines(OutletsOnly("simples", "10", qty));
    assert Total(lines[4..]) == 0.0;
    assert Total(lines[3..]) == 0.0;
    assert Total(lines[2..]) == 0.0;
    assert Total(lines[1..]) == 0.0;
  }

  /** A custom form with only frames filled in. */
  function FramesOnly(frame: string, qty: real): PersForm {
    PersForm(frame, "4x2", "1", Some(qty), None, None, None, None, None, None, None, None, None, None, None, None)
  }

  lemma {:induction false} NothingEntered(entries: seq<Entry>)
    requires forall i :: 0 <= i < |entries| ==> entries[i].qty <= 0.0
    ensures EntriesTotal(entries) == 0.0
  {
    if entries != [] {
      NothingEntered(entries[1..]);
    }
  }

  /** With only frames entered, the custom form adds exactly one entry. */
  lemma FramesOnlyIsOneEntry(s: State, frame: string, qty: real)
    ensures AddEntries(s, PersEntries(FramesOnly(frame, qty))).state
            == AddCustomEntry(s, "Bastidor " + frame, Positive(Some(qty))).state
  {
    var entries := PersEntries(FramesOnly(frame, qty));
    NothingEntered(entries[1..]);
  }

  /** Custom mode for a room that does not exist yet, frames added: the new room prints
      them under the form's own caption, without the kit suffix. */
  lemma CustomRoomFromScratch(u: Runtime, name: string, frame: string, qty: real, d0: string, d1: string, r1: string, d2: string)
    requires name != "" && Trim(name) != [] && d1 != "" && qty > 0.0
    ensures var s1 := OpenCustom(u, Initial(d0), Some(name), d1);
            var r := AddPers(u, s1, FramesOnly(frame, qty), r1, d2);
            && s1.target == None && s1.draft == EmptyRoom(d1, Trim(name))
            && r.status == Saved && |r.state.rooms| == 1
            && r.state.rooms[0].id == d1 && r.state.rooms[0].name == Trim(name)
            && ExportRow(r.state.rooms[0], Catalog.CustomKey("Bastidor " + frame)) == Some(Row("Bastidor " + frame, qty))
  {
    TrimFixed(Trim(name));
    var s1 := OpenCustom(u, Initial(d0), Some(name), d1);
    assert NoRoomWithKey(u, Initial(d0).rooms, Sanitize(u, Trim(name)));
    CustomIntoNothing(u, s1, frame, qty, r1, d2);
    var key := Catalog.CustomKey("Bastidor " + frame);
    assert Catalog.IsCustom(key);
  }

  /** Custom entries with no room yet and no target: the draft becomes the first room. */
  lemma CustomIntoNothing(u: Runtime, s: State, frame: string, qty: real, id1: string, id2: string)
    requires s.rooms == [] && s.target == None && s.draft.id != "" && Trim(s.draft.name) != [] && qty > 0.0
    ensures var r := AddPers(u, s, FramesOnly(frame, qty), id1, id2);
            var key := Catalog.CustomKey("Bastidor " + frame);
            && r.status == Saved && |r.state.rooms| == 1
            && r.state.rooms[0].id == s.draft.id && r.state.rooms[0].name == s.draft.name
            && key in r.state.rooms[0].items && r.state.rooms[0].items[key] == Get0(s.draft.items, key) + qty
            && key in r.state.rooms[0].labels && r.state.rooms[0].labels[key] == "Bastidor " + frame
  {
    FramesOnlyIsOneEntry(s, frame, qty);
    var a := AddEntries(s, PersEntries(FramesOnly(frame, qty)));
    assert a.count > 0.0;
    FirstRoom(u, a.state, id1, id2);
  }

  /** The first room ever saved is the draft itself. */
  lemma FirstRoom(u: Runtime, s: State, id1: string, id2: string)
    requires s.rooms == [] && s.draft.id != "" && Trim(s.draft.name) != []
    ensures Merge(u, s, true, id1, id2).state.rooms == [s.draft]
  {
    assert NoRoomWithKey(u, s.rooms, Sanitize(u, Trim(s.draft.name)));
  }

  // ---- Quirks kept from the page ----

  /** Editing a quantity to 0.5 rounds it down to 0: the item stays stored, and neither the
      room list nor the printed document shows it. */
  lemma HalfEditLeavesHiddenZero(room: Room, k: string)
    ensures var r := EditItem(room, k, Some(0.5));
            k in r.items && r.items[k] == 0.0 && ExportRow(r, k).None?
  {
    var r := EditItem(room, k, Some(0.5));
    var f := r.items[k].Floor;
    assert f as real == r.items[k];
    assert f <= 0 && f >= 0;
  }

  /** The buttons a saved room renders reach that room and that key, whenever room ids have
      no colon (the ids `uid()` draws are base-36 digits). */
  lemma ButtonsReachTheirRoom(u: Runtime, s: State, id: string, k: string, a: Option<real>, id1: string, id2: string)
    requires ':' !in id
    ensures Apply(u, s, DeleteSaved(ButtonData.Pack(id, k)), id1, id2) == DeleteRoomItem(s, id, k)
    ensures Apply(u, s, EditSaved(ButtonData.Pack(id, k), a), id1, id2) == EditRoomItem(s, id, k, a)
  {
    ButtonData.UnpackPack(id, k);
  }

  /** A room id with a colon in it would send its buttons elsewhere. */
  lemma ColonInIdMisroutes()
    ensures ButtonData.Unpack(ButtonData.Pack("a:b", "ts10")) == ("a", "b:ts10")
  {
    assert ButtonData.Pack("a:b", "ts10") == "a:b:ts10";
    ButtonData.SplitAfterPlainPrefix("a", "b:ts10");
  }

  /** Custom mode aimed at an existing room: the entries go to the first room carrying that
      room's id and the draft keeps whatever it held. Ids are not known to be unique, so the
      receiving room is the named one only when no earlier room shares its id. */
  lemma CustomModeTargetsNamedRoom(u: Runtime, s: State, name: string, i: int, p: PersForm, id0: string, id1: string, id2: string)
    requires name != "" && FirstWithKey(u, s.rooms, i, Sanitize(u, Trim(name))) && s.rooms[i].id != ""
    ensures var s1 := OpenCustom(u, s, Some(name), id0);
            var r := AddPers(u, s1, p, id1, id2);
            && s1.target == Some(s.rooms[i].id)
            && r.state.draft == s.draft && |r.state.rooms| == |s.rooms|
            && forall k :: RoomsQty(r.state.rooms, k) == RoomsQty(s.rooms, k) + EntriesQty(PersEntries(p), k)
    ensures var r := AddPers(u, OpenCustom(u, s, Some(name), id0), p, id1, id2);
            forall t :: FirstWithId(s.rooms, t, s.rooms[i].id) ==>
              && r.state.rooms[t] == AddEntriesTo(s.rooms[t], PersEntries(p))
              && forall j :: 0 <= j < |s.rooms| && j != t ==> r.state.rooms[j] == s.rooms[j]
  {
    var s1 := OpenCustom(u, s, Some(name), id0);
    assert !NoRoomWithId(s1.rooms, s.rooms[i].id);
    AddPersRoute(u, s1, p, id1, id2);
  }

  /** Two rooms may share an id, and then custom mode named after the second one feeds the
      first: the named room is left as it was. */
  lemma SharedIdFeedsEarlierRoom(u: Runtime, s: State, name: string, p: PersForm, id0: string, id1: string, id2: string)
    requires |s.rooms| == 2 && s.rooms[0].id == s.rooms[1].id != ""
    requires name != "" && FirstWithKey(u, s.rooms, 1, Sanitize(u, Trim(name)))
    ensures var r := AddPers(u, OpenCustom(u, s, Some(name), id0), p, id1, id2);
            && r.state.rooms[0] == AddEntriesTo(s.rooms[0], PersEntries(p))
            && r.state.rooms[1] == s.rooms[1]
  {
    CustomModeTargetsNamedRoom(u, s, name, 1, p, id0, id1, id2);
    assert FirstWithId(s.rooms, 0, s.rooms[1].id);
  }
}

=== FILE: inventory.dfy ===
/** The room inventory: a list name, the persisted rooms in creation order, one draft room
    being filled in, and an optional target room for custom entries. Every operation is a
    pure transition from one state to the next; ids the source draws from `uid()` are
    parameters, and quantities typed by the user arrive already parsed by `Number(...)`,
    None standing for a result that is not a finite number. */
module Inventory {
  import opened Wrappers
  import opened JsText
  import opened RoomKey
  import Catalog

  /** Item key to quantity. */
  type Items = map<string, real>

  /** Custom item key to its display label. */
  type Labels = map<string, string>

  datatype Room = Room(id: string, name: string, items: Items, labels: Labels)

  datatype State = State(listName: string, rooms: seq<Room>, draft: Room, target: Option<string>)

  /** `(m[k] || 0)`. */
  function Get0(m: Items, k: string): real {
    if k in m then m[k] else 0.0
  }

  /** The two maps agree everywhere except possibly at `k`. */
  ghost predicate AgreeOff<V>(a: map<string, V>, b: map<string, V>, k: string) {
    forall k' :: k' != k ==> (k' in a <==> k' in b) && (k' in a ==> a[k'] == b[k'])
  }

  function EmptyRoom(id: string, name: string): Room {
    Room(id, name, map[], map[])
  }

  /** The state the page starts from when nothing is stored. */
  function Initial(freshId: string): State {
    State("", [], EmptyRoom(freshId, ""), None)
  }

  // ---- Looking rooms up ----

  /** `findIndex`: the first room satisfying `p`. */
  function FirstIndex(rooms: seq<Room>, p: Room -> bool): (r: Option<nat>)
    ensures r.Some? ==> r.value < |rooms| && p(rooms[r.value])
                        && forall j :: 0 <= j < r.value ==> !p(rooms[j])
    ensures r.None? ==> forall j :: 0 <= j < |rooms| ==> !p(rooms[j])
  {
    if rooms == [] then None
    else if p(rooms[0]) then Some(0)
    else match FirstIndex(rooms[1..], p)
      case None => None
      case Some(i) => Some(i + 1)
  }

  /** Room `i` is the first with this id. */
  ghost predicate FirstWithId(rooms: seq<Room>, i: int, id: string) {
    0 <= i < |rooms| && rooms[i].id == id && forall j :: 0 <= j < i ==> rooms[j].id != id
  }

  ghost predicate NoRoomWithId(rooms: seq<Room>, id: string) {
    forall j :: 0 <= j < |rooms| ==> rooms[j].id != id
  }

  /** Room `i` is the first whose sanitized name is `key`. */
  ghost predicate FirstWithKey(u: Runtime, rooms: seq<Room>, i: int, key: string) {
    0 <= i < |rooms| && Sanitize(u, rooms[i].name) == key
    && forall j :: 0 <= j < i ==> Sanitize(u, rooms[j].name) != key
  }

  ghost predicate NoRoomWithKey(u: Runtime, rooms: seq<Room>, key: string) {
    forall j :: 0 <= j < |rooms| ==> Sanitize(u, rooms[j].name) != key
  }

  function IndexOfId(rooms: seq<Room>, id: string): (r: Option<nat>)
    ensures r.Some? ==> FirstWithId(rooms, r.value, id)
    ensures r.None? ==> NoRoomWithId(rooms, id)
  {
    FirstIndex(rooms, (room: Room) => room.id == id)
  }

  function IndexOfKey(u: Runtime, rooms: seq<Room>, key: string): (r: Option<nat>)
    ensures r.Some? ==> FirstWithKey(u, rooms, r.value, key)
    ensures r.None? ==> NoRoomWithKey(u, rooms, key)
  {
    FirstIndex(rooms, (room: Room) => Sanitize(u, room.name) == key)
  }

  /** Any first room with the key is the one `IndexOfKey` finds. */
  lemma IndexOfKeyFinds(u: Runtime, rooms: seq<Room>, key: string)
    ensures forall i :: FirstWithKey(u, rooms, i, key) ==> IndexOfKey(u, rooms, key) == Some(i)
  {
    forall i | FirstWithKey(u, rooms, i, key) ensures IndexOfKey(u, rooms, key) == Some(i) {
      var j := IndexOfKey(u, rooms, key);
      assert Sanitize(u, rooms[i].name) == key;
      assert j.Some?;
    }
  }

  // ---- Item edits, shared by the draft and the persisted rooms ----

  /** Delete: the key leaves both the item and the label map; nothing else changes. */
  function DeleteItem(room: Room, k: string): (r: Room)
    ensures r.id == room.id && r.name == room.name
    ensures k !in r.items && k !in r.labels
    ensures AgreeOff(r.items, room.items, k) && AgreeOff(r.labels, room.labels, k)
  {
    room.(items := room.items - {k}, labels := room.labels - {k})
  }

  predicate Whole(x: real) {
    x.Floor as real == x
  }

  /** Edit to the prompted quantity. A non-finite answer changes nothing; an answer at or
      below zero deletes the item; any other answer is stored rounded down, so an answer
      strictly between 0 and 1 leaves the item present with quantity 0. */
  function EditItem(room: Room, k: string, answer: Option<real>): (r: Room)
    ensures r.id == room.id && r.name == room.name
    ensures answer.None? ==> r == room
    ensures answer.Some? && answer.value <= 0.0 ==> r == DeleteItem(room, k)
    ensures answer.Some? && answer.value > 0.0 ==>
              && k in r.items && Whole(r.items[k])
              && r.items[k] <= answer.value < r.items[k] + 1.0
              && AgreeOff(r.items, room.items, k) && r.labels == room.labels
  {
    match answer
    case None => room
    case Some(v) =>
      if v <= 0.0 then DeleteItem(room, k)
      else room.(items := room.items[k := v.Floor as real])
  }

  /** Adding `qty` of a custom item: its quantity grows by `qty`, its label becomes
      `caption`, and nothing else changes. */
  function AddCustom(room: Room, caption: string, qty: real): (r: Room)
    ensures r.id == room.id && r.name == room.name
    ensures var k := Catalog.CustomKey(caption);
            && k in r.items && r.items[k] == Get0(room.items, k) + qty
            && k in r.labels && r.labels[k] == caption
            && AgreeOff(r.items, room.items, k) && AgreeOff(r.labels, room.labels, k)
  {
    var k := Catalog.CustomKey(caption);
    room.(items := room.items[k := Get0(room.items, k) + qty], labels := room.labels[k := caption])
  }

  // ---- Merging the draft ----

  /** The draft folded into a matching room: quantities of the draft's keys are added, each
      custom key of the draft takes the draft's label (or loses its label when the draft has
      none), and everything else in the room stays. */
  function FoldDraft(room: Room, draft: Room): (r: Room)
    ensures r.id == room.id && r.name == room.name
    ensures forall k :: k in draft.items ==>
              k in r.items && r.items[k] == Get0(room.items, k) + draft.items[k]
    ensures forall k :: k !in draft.items ==>
              (k in r.items <==> k in room.items) && (k in room.items ==> r.items[k] == room.items[k])
    ensures forall k :: k in draft.items && Catalog.IsCustom(k) ==>
              (k in r.labels <==> k in draft.labels) && (k in draft.labels ==> r.labels[k] == draft.labels[k])
    ensures forall k :: !(k in draft.items && Catalog.IsCustom(k)) ==>
              (k in r.labels <==> k in room.labels) && (k in room.labels ==> r.labels[k] == room.labels[k])
  {
    var items := map k | k in room.items.Keys + draft.items.Keys :: Get0(room.items, k) + Get0(draft.items, k);
    var relabelled := set k | k in draft.items && Catalog.IsCustom(k);
    var labels := map k | k in (room.labels.Keys - relabelled) + (relabelled * draft.labels.Keys) ::
                    if k in relabelled then draft.labels[k] else room.labels[k];
    room.(items := items, labels := labels)
  }

  /** A draft that becomes a room of its own keeps its contents; it is given the fresh id only
      if it has none. */
  function NewRoom(draft: Room, freshId: string): (r: Room)
    ensures r.name == draft.name && r.items == draft.items && r.labels == draft.labels
    ensures r.id == (if draft.id == "" then freshId else draft.id)
  {
    if draft.id == "" then draft.(id := freshId) else draft
  }

  /** Total quantity of key `k` over a sequence of rooms. */
  function RoomsQty(rooms: seq<Room>, k: string): real {
    if rooms == [] then 0.0 else Get0(rooms[0].items, k) + RoomsQty(rooms[1..], k)
  }

  datatype MergeReply = MergeReply(state: State, ok: bool)

  /** `mergeDraftIntoRooms`. */
  function Merge(u: Runtime, s: State, preserveName: bool, freshRoomId: string, freshDraftId: string): (r: MergeReply)
    // Rejected exactly when the trimmed draft name is empty, and then nothing changes.
    ensures r.ok <==> Trim(s.draft.name) != []
    ensures !r.ok ==> r.state == s
    // Afterwards the draft is empty, with the fresh id and the trimmed name or none.
    ensures r.ok ==> r.state.draft == EmptyRoom(freshDraftId, if preserveName then Trim(s.draft.name) else "")
    ensures r.ok ==> r.state.listName == s.listName && r.state.target == s.target
    // No quantity is lost or counted twice: what was in the draft is now in the rooms.
    ensures r.ok ==> forall k :: RoomsQty(r.state.rooms, k) == RoomsQty(s.rooms, k) + Get0(s.draft.items, k)
    // Where the draft goes is stated by `MergePlacement`.
  {
    var name := Trim(s.draft.name);
    if name == [] then MergeReply(s, false)
    else
      var key := Sanitize(u, name);
      var rooms := match IndexOfKey(u, s.rooms, key)
        case Some(i) => s.rooms[i := FoldDraft(s.rooms[i], s.draft)]
        case None => s.rooms + [NewRoom(s.draft, freshRoomId)];
      QtyAfterMerge(u, s, key, freshRoomId);
      var keep := if preserveName then name else "";
      MergeReply(s.(rooms := rooms, draft := EmptyRoom(freshDraftId, keep)), true)
  }

  lemma QtyAfterMerge(u: Runtime, s: State, key: string, freshRoomId: string)
    ensures var rooms := match IndexOfKey(u, s.rooms, key)
              case Some(i) => s.rooms[i := FoldDraft(s.rooms[i], s.draft)]
              case None => s.rooms + [NewRoom(s.draft, freshRoomId)];
            forall k :: RoomsQty(rooms, k) == RoomsQty(s.rooms, k) + Get0(s.draft.items, k)
  {
    match IndexOfKey(u, s.rooms, key)
    case Some(i) =>
      var folded := FoldDraft(s.rooms[i], s.draft);
      forall k ensures RoomsQty(s.rooms[i := folded], k) == RoomsQty(s.rooms, k) + Get0(s.draft.items, k) {
        RoomsQtyUpdate(s.rooms, i, folded, k);
      }
    case None =>
      forall k ensures RoomsQty(s.rooms + [NewRoom(s.draft, freshRoomId)], k)
                       == RoomsQty(s.rooms, k) + Get0(s.draft.items, k) {
        RoomsQtyAppend(s.rooms, NewRoom(s.draft, freshRoomId), k);
      }
  }

  lemma {:induction false} RoomsQtyUpdate(rooms: seq<Room>, i: nat, room: Room, k: string)
    requires i < |rooms|
    ensures RoomsQty(rooms[i := room], k) == RoomsQty(rooms, k) - Get0(rooms[i].items, k) + Get0(room.items, k)
  {
    if i > 0 {
      assert rooms[i := room][1..] == rooms[1..][i - 1 := room];
      RoomsQtyUpdate(rooms[1..], i - 1, room, k);
    }
  }

  lemma {:induction false} RoomsQtyAppend(rooms: seq<Room>, room: Room, k: string)
    ensures RoomsQty(rooms + [room], k) == RoomsQty(rooms, k) + Get0(room.items, k)
  {
    if rooms == [] {
      assert ([room])[1..] == [];
    } else {
      assert (rooms + [room])[1..] == rooms[1..] + [room];
      RoomsQtyAppend(rooms[1..], room, k);
    }
  }

  // ---- The save button ----

  /** One quantity field of the form and the item key it adds to. */
  datatype Line = Line(code: string, qty: Option<real>)

  /** What the form holds when "save item" is pressed: the outlet style, amperage and
      quantity, the three switch selectors with their quantities, and the doorbell
      quantity. */
  datatype Form = Form(
    socketStyle: string, socketAmp: string, socketQty: Option<real>,
    switchCode: string, switchQty: Option<real>,
    parallelCode: string, parallelQty: Option<real>,
    intermediateCode: string, intermediateQty: Option<real>,
    bellQty: Option<real>)

  /** The outlet code; a style/amperage pair outside the table yields no code, and the
      JavaScript property key is then the string "undefined". */
  function SocketCode(style: string, amp: string): string {
    Catalog.OutletKey(style, amp).GetOr("undefined")
  }

  /** The form's five quantity fields, in the order the source reads them. */
  function FormLines(f: Form): seq<Line> {
    [ Line(SocketCode(f.socketStyle, f.socketAmp), f.socketQty),
      Line(f.switchCode, f.switchQty),
      Line(f.parallelCode, f.parallelQty),
      Line(f.intermediateCode, f.intermediateQty),
      Line("camp", f.bellQty) ]
  }

  /** `Math.max(0, Number(v))` when it is then tested `> 0`: what the field contributes. */
  function Positive(q: Option<real>): (r: real)
    ensures r >= 0.0
    ensures r > 0.0 <==> q.Some? && q.value > 0.0
    ensures r > 0.0 ==> r == q.value
  {
    if q.Some? && q.value > 0.0 then q.value else 0.0
  }

  /** Everything the lines contribute, in any key. */
  function Total(lines: seq<Line>): (r: real)
    ensures r >= 0.0
  {
    if lines == [] then 0.0 else Positive(lines[0].qty) + Total(lines[1..])
  }

  /** What the lines contribute to key `k`. */
  function Contribution(lines: seq<Line>, k: string): (r: real)
    ensures 0.0 <= r <= Total(lines)
  {
    if lines == [] then 0.0
    else (if lines[0].code == k then Positive(lines[0].qty) else 0.0) + Contribution(lines[1..], k)
  }

  datatype Tally = Tally(items: Items, added: real)

  /** The accumulation step of `salvarItem`: each line with a positive quantity adds it to
      its key (default 0) and to the running total. */
  function Accumulate(items: Items, lines: seq<Line>): (r: Tally)
    ensures r.added == Total(lines)
    ensures forall k :: k in r.items <==> k in items || Contribution(lines, k) > 0.0
    ensures forall k :: k in r.items ==> r.items[k] == Get0(items, k) + Contribution(lines, k)
    decreases |lines|
  {
    if lines == [] then Tally(items, 0.0)
    else
      var q := Positive(lines[0].qty);
      var code := lines[0].code;
      var next := if q > 0.0 then items[code := Get0(items, code) + q] else items;
      var rest := Accumulate(next, lines[1..]);
      Tally(rest.items, q + rest.added)
  }

  /** When nothing positive was entered, accumulation changes no item. */
  lemma NothingAccumulated(items: Items, lines: seq<Line>)
    requires Total(lines) == 0.0
    ensures Accumulate(items, lines).items == items
  {
    var r := Accumulate(items, lines);
    forall k ensures k in r.items <==> k in items {
      assert Contribution(lines, k) == 0.0;
    }
  }

  datatype Status = Saved | MissingName | NothingEntered

  datatype Reply = Reply(state: State, status: Status)

  /** `salvarItem`: checks the room name, adds the form's quantities to the draft, and
      merges the draft into the rooms when something was entered. */
  function SaveDraft(u: Runtime, s: State, f: Form, freshRoomId: string, freshDraftId: string): (r: Reply)
    ensures r.status == MissingName <==> Trim(s.draft.name) == []
    ensures r.status == NothingEntered <==> Trim(s.draft.name) != [] && Total(FormLines(f)) == 0.0
    ensures r.status != Saved ==> r.state == s
    ensures r.status == Saved ==>
              && r.state.draft == EmptyRoom(freshDraftId, Trim(s.draft.name))
              && r.state.listName == s.listName && r.state.target == s.target
              && forall k :: RoomsQty(r.state.rooms, k)
                             == RoomsQty(s.rooms, k) + Get0(s.draft.items, k) + Contribution(FormLines(f), k)
    // Where the draft goes is stated by `SavePlacement`.
  {
    if Trim(s.draft.name) == [] then Reply(s, MissingName)
    else
      var t := Accumulate(s.draft.items, FormLines(f));
      var s1 := s.(draft := s.draft.(items := t.items));
      if t.added == 0.0 then
        NothingAccumulated(s.draft.items, FormLines(f));
        Reply(s1, NothingEntered)
      else
        SavedQty(u, s, f, freshRoomId, freshDraftId);
        Reply(Merge(u, s1, true, freshRoomId, freshDraftId).state, Saved)
  }

  /** Where a save puts the draft: into the first room with its key, else into a new last
      room under the draft's id and name. */
  lemma SavePlacement(u: Runtime, s: State, f: Form, freshRoomId: string, freshDraftId: string)
    ensures var r := SaveDraft(u, s, f, freshRoomId, freshDraftId);
            var key := Sanitize(u, Trim(s.draft.name));
            && (r.status == Saved ==> forall i :: FirstWithKey(u, s.rooms, i, key) ==>
                  && |r.state.rooms| == |s.rooms|
                  && r.state.rooms[i].id == s.rooms[i].id && r.state.rooms[i].name == s.rooms[i].name
                  && forall j :: 0 <= j < |s.rooms| && j != i ==> r.state.rooms[j] == s.rooms[j])
            && (r.status == Saved && NoRoomWithKey(u, s.rooms, key) ==>
                  && |r.state.rooms| == |s.rooms| + 1
                  && r.state.rooms[..|s.rooms|] == s.rooms
                  && r.state.rooms[|s.rooms|].id == (if s.draft.id == "" then freshRoomId else s.draft.id)
                  && r.state.rooms[|s.rooms|].name == s.draft.name)
  {
    if Trim(s.draft.name) != [] {
      var t := Accumulate(s.draft.items, FormLines(f));
      MergeShape(u, s.(draft := s.draft.(items := t.items)), true, freshRoomId, freshDraftId);
    }
  }

  /** What a save adds to the rooms, key by key: the draft's old contents and the form's. */
  lemma SavedQty(u: Runtime, s: State, f: Form, freshRoomId: string, freshDraftId: string)
    requires Trim(s.draft.name) != []
    ensures var t := Accumulate(s.draft.items, FormLines(f));
            var r := Merge(u, s.(draft := s.draft.(items := t.items)), true, freshRoomId, freshDraftId).state;
            forall k :: RoomsQty(r.rooms, k) == RoomsQty(s.rooms, k) + Get0(s.draft.items, k) + Contribution(FormLines(f), k)
  {
    var t := Accumulate(s.draft.items, FormLines(f));
    forall k ensures Get0(t.items, k) == Get0(s.draft.items, k) + Contribution(FormLines(f), k) {
      if k !in t.items {
        assert Contribution(FormLines(f), k) <= 0.0;
      }
    }
  }

  /** Where an accepted merge puts the draft: the first room with the draft's key absorbs
      it in place; without such a room it is appended as a new room. */
  lemma MergePlacement(u: Runtime, s: State, preserveName: bool, freshRoomId: string, freshDraftId: string)
    requires Trim(s.draft.name) != []
    ensures var r := Merge(u, s, preserveName, freshRoomId, freshDraftId).state;
            var key := Sanitize(u, Trim(s.draft.name));
            && (forall i :: FirstWithKey(u, s.rooms, i, key) ==>
                  && |r.rooms| == |s.rooms|
                  && r.rooms[i] == FoldDraft(s.rooms[i], s.draft)
                  && forall j :: 0 <= j < |s.rooms| && j != i ==> r.rooms[j] == s.rooms[j])
            && (NoRoomWithKey(u, s.rooms, key) ==> r.rooms == s.rooms + [NewRoom(s.draft, freshRoomId)])
  {
    IndexOfKeyFinds(u, s.rooms, Sanitize(u, Trim(s.draft.name)));
  }

  /** The same placement, told by ids and names only. */
  lemma MergeShape(u: Runtime, s: State, preserveName: bool, freshRoomId: string, freshDraftId: string)
    requires Trim(s.draft.name) != []
    ensures var r := Merge(u, s, preserveName, freshRoomId, freshDraftId).state;
            var key := Sanitize(u, Trim(s.draft.name));
            && (forall i :: FirstWithKey(u, s.rooms, i, key) ==>
                  && |r.rooms| == |s.rooms|
                  && r.rooms[i].id == s.rooms[i].id && r.rooms[i].name == s.rooms[i].name
                  && forall j :: 0 <= j < |s.rooms| && j != i ==> r.rooms[j] == s.rooms[j])
            && (NoRoomWithKey(u, s.rooms, key) ==>
                  && |r.rooms| == |s.rooms| + 1
                  && r.rooms[..|s.rooms|] == s.rooms
                  && r.rooms[|s.rooms|].id == (if s.draft.id == "" then freshRoomId else s.draft.id)
                  && r.rooms[|s.rooms|].name == s.draft.name)
  {
    var r := Merge(u, s, preserveName, freshRoomId, freshDraftId).state;
    var key := Sanitize(u, Trim(s.draft.name));
    MergePlacement(u, s, preserveName, freshRoomId, freshDraftId);
    forall i | FirstWithKey(u, s.rooms, i, key)
      ensures r.rooms[i].id == s.rooms[i].id && r.rooms[i].name == s.rooms[i].name
    {
      assert r.rooms[i] == FoldDraft(s.rooms[i], s.draft);
    }
    if NoRoomWithKey(u, s.rooms, key) {
      assert r.rooms[..|s.rooms|] == s.rooms;
    }
  }

  // ---- Other transitions ----

  /** `novoComodo`: a fresh, unnamed, empty draft; rooms and the custom target stay. */
  function StartDraft(s: State, freshId: string): (r: State)
    ensures r.draft == EmptyRoom(freshId, "")
    ensures r.rooms == s.rooms && r.listName == s.listName && r.target == s.target
  {
    s.(draft := EmptyRoom(freshId, ""))
  }

  /** `resetAll`: the state the page boots into. */
  function ResetAll(s: State, freshId: string): (r: State)
    ensures r == Initial(freshId)
  {
    State("", [], Room(freshId, "", map[], map[]), None)
  }

  /** `exportarPDF`'s effect on the state: with no saved room it refuses and nothing changes;
      otherwise the list is printed (left out) and everything is reset. */
  function Export(s: State, freshId: string): (r: State)
    ensures s.rooms == [] ==> r == s
    ensures s.rooms != [] ==> r == Initial(freshId) && r.rooms == []
  {
    if s.rooms == [] then s else ResetAll(s, freshId)
  }

  /** Typing in the room-name field: the draft's name becomes the text without whitespace
      margins; its id and contents stay. */
  function RenameDraft(s: State, text: string): (r: State)
    ensures r.draft.name == Trim(text) && NoEdgeSpace(r.draft.name)
    ensures r.draft == s.draft.(name := r.draft.name)
    ensures r.rooms == s.rooms && r.listName == s.listName && r.target == s.target
  {
    s.(draft := s.draft.(name := Trim(text)))
  }

  /** Typing in the list-name field: the list name becomes the text without whitespace
      margins; nothing else changes. */
  function SetListName(s: State, text: string): (r: State)
    ensures r.listName == Trim(text) && NoEdgeSpace(r.listName)
    ensures r == s.(listName := r.listName)
  {
    s.(listName := Trim(text))
  }

  // ---- Editing the draft ----

  /** The draft's delete button. */
  function DeleteDraftItem(s: State, k: string): (r: State)
    ensures r.draft.id == s.draft.id && r.draft.name == s.draft.name
    ensures k !in r.draft.items && k !in r.draft.labels
    ensures AgreeOff(r.draft.items, s.draft.items, k) && AgreeOff(r.draft.labels, s.draft.labels, k)
    ensures r.rooms == s.rooms && r.listName == s.listName && r.target == s.target
  {
    s.(draft := DeleteItem(s.draft, k))
  }

  /** The draft's edit button, given the parsed answer to the quantity prompt. */
  function EditDraftItem(s: State, k: string, answer: Option<real>): (r: State)
    ensures r.draft == EditItem(s.draft, k, answer)
    ensures r.rooms == s.rooms && r.listName == s.listName && r.target == s.target
  {
    s.(draft := EditItem(s.draft, k, answer))
  }

  // ---- Editing persisted rooms ----

  /** The state with the first room of this id replaced by `change` applied to it, or
      unchanged when no room has the id. */
  function UpdateRoom(s: State, id: string, change: Room -> Room): (r: State)
    ensures NoRoomWithId(s.rooms, id) ==> r == s
    ensures forall i :: FirstWithId(s.rooms, i, id) ==>
              && |r.rooms| == |s.rooms|
              && r.rooms[i] == change(s.rooms[i])
              && forall j :: 0 <= j < |s.rooms| && j != i ==> r.rooms[j] == s.rooms[j]
    ensures r.draft == s.draft && r.listName == s.listName && r.target == s.target
  {
    match IndexOfId(s.rooms, id)
    case None => s
    case Some(i) => s.(rooms := s.rooms[i := change(s.rooms[i])])
  }

  /** Deleting an item of a persisted room. */
  function DeleteRoomItem(s: State, id: string, k: string): (r: State)
    ensures NoRoomWithId(s.rooms, id) ==> r == s
    ensures forall i :: FirstWithId(s.rooms, i, id) ==>
              && |r.rooms| == |s.rooms|
              && k !in r.rooms[i].items && k !in r.rooms[i].labels
              && AgreeOff(r.rooms[i].items, s.rooms[i].items, k)
              && AgreeOff(r.rooms[i].labels, s.rooms[i].labels, k)
              && r.rooms[i].id == id && r.rooms[i].name == s.rooms[i].name
              && forall j :: 0 <= j < |s.rooms| && j != i ==> r.rooms[j] == s.rooms[j]
    ensures r.draft == s.draft && r.listName == s.listName && r.target == s.target
  {
    UpdateRoom(s, id, room => DeleteItem(room, k))
  }

  /** Editing an item of a persisted room, given the parsed answer to the prompt. */
  function EditRoomItem(s: State, id: string, k: string, answer: Option<real>): (r: State)
    ensures NoRoomWithId(s.rooms, id) ==> r == s
    ensures forall i :: FirstWithId(s.rooms, i, id) ==>
              && |r.rooms| == |s.rooms|
              && r.rooms[i] == EditItem(s.rooms[i], k, answer)
              && forall j :: 0 <= j < |s.rooms| && j != i ==> r.rooms[j] == s.rooms[j]
    ensures r.draft == s.draft && r.listName == s.listName && r.target == s.target
  {
    UpdateRoom(s, id, room => EditItem(room, k, answer))
  }

  /** The "delete room" button: the first room with the id leaves the list, the others keep
      their order, and the draft is untouched. */
  function DeleteRoom(s: State, id: string): (r: State)
    ensures NoRoomWithId(s.rooms, id) ==> r == s
    ensures forall i :: FirstWithId(s.rooms, i, id) ==>
              && |r.rooms| == |s.rooms| - 1
              && (forall j :: 0 <= j < i ==> r.rooms[j] == s.rooms[j])
              && (forall j :: i <= j < |r.rooms| ==> r.rooms[j] == s.rooms[j + 1])
    ensures r.draft == s.draft && r.listName == s.listName && r.target == s.target
  {
    match IndexOfId(s.rooms, id)
    case None => s
    case Some(i) => s.(rooms := s.rooms[..i] + s.rooms[i + 1..])
  }

  // ---- Custom entries ----

  /** `if (state.alvoPersId)`: a target is in force only when it is a non-empty id. */
  predicate HasTarget(s: State) {
    s.target.Some? && s.target.value != ""
  }

  datatype Added = Added(state: State, count: real)

  /** `addCustomEntry`: a non-positive quantity is ignored; otherwise the custom item goes to
      the target room when a target is in force, else to the draft. The quantity is reported
      as added even when the target room no longer exists. */
  function AddCustomEntry(s: State, caption: string, qty: real): (r: Added)
    ensures qty <= 0.0 ==> r == Added(s, 0.0)
    ensures qty > 0.0 ==> r.count == qty
    ensures r.state.listName == s.listName && r.state.target == s.target
    ensures qty > 0.0 && !HasTarget(s) ==> r.state == s.(draft := AddCustom(s.draft, caption, qty))
    ensures HasTarget(s) ==> r.state.draft == s.draft
    ensures HasTarget(s) && NoRoomWithId(s.rooms, s.target.value) ==> r.state == s
    ensures qty > 0.0 && HasTarget(s) ==> forall i :: FirstWithId(s.rooms, i, s.target.value) ==>
              && |r.state.rooms| == |s.rooms|
              && r.state.rooms[i] == AddCustom(s.rooms[i], caption, qty)
              && forall j :: 0 <= j < |s.rooms| && j != i ==> r.state.rooms[j] == s.rooms[j]
  {
    if qty <= 0.0 then Added(s, 0.0)
    else if HasTarget(s) then
      Added(UpdateRoom(s, s.target.value, (room: Room) => AddCustom(room, caption, qty)), qty)
    else Added(s.(draft := AddCustom(s.draft, caption, qty)), qty)
  }

  /** One custom quantity field: the label the form builds for it and its quantity. */
  datatype Entry = Entry(caption: string, qty: real)

  /** What one entry adds: its quantity when positive, as `addCustomEntry` returns it. */
  function EntryCount(e: Entry): (r: real)
    ensures r >= 0.0
  {
    Positive(Some(e.qty))
  }

  /** What the custom entries add altogether. */
  function EntriesTotal(entries: seq<Entry>): (r: real)
    ensures r >= 0.0
  {
    if entries == [] then 0.0 else EntryCount(entries[0]) + EntriesTotal(entries[1..])
  }

  /** What the custom entries add to item key `k`. */
  function EntriesQty(entries: seq<Entry>, k: string): (r: real)
    ensures r >= 0.0
  {
    if entries == [] then 0.0
    else (if Catalog.CustomKey(entries[0].caption) == k then EntryCount(entries[0]) else 0.0)
         + EntriesQty(entries[1..], k)
  }

  /** One room receiving the custom entries in order, the non-positive ones skipped. Each
      key grows by what the entries bring it; a key that receives something is a custom key
      labelled with its own caption; every other key keeps its quantity and its label. */
  function AddEntriesTo(room: Room, entries: seq<Entry>): (r: Room)
    ensures r.id == room.id && r.name == room.name
    ensures forall k :: Get0(r.items, k) == Get0(room.items, k) + EntriesQty(entries, k)
    ensures forall k :: k in r.items <==> k in room.items || EntriesQty(entries, k) > 0.0
    ensures forall k :: EntriesQty(entries, k) > 0.0 ==>
              Catalog.IsCustom(k) && k in r.labels && r.labels[k] == k[2..]
    ensures forall k :: EntriesQty(entries, k) == 0.0 ==>
              (k in r.labels <==> k in room.labels) && (k in room.labels ==> r.labels[k] == room.labels[k])
    decreases |entries|
  {
    if entries == [] then room
    else
      var e := entries[0];
      var next := if e.qty > 0.0 then AddCustom(room, e.caption, e.qty) else room;
      AddEntriesTo(next, entries[1..])
  }

  /** The custom entries added one after another, with the sum of the counts returned.
      Without a target everything lands in the draft; with one, in the target room, or
      nowhere at all when that room is gone. */
  function AddEntries(s: State, entries: seq<Entry>): (r: Added)
    ensures r.count == EntriesTotal(entries)
    ensures r.count == 0.0 ==> r.state == s
    ensures |r.state.rooms| == |s.rooms|
    ensures forall i :: 0 <= i < |s.rooms| ==>
              r.state.rooms[i].id == s.rooms[i].id && r.state.rooms[i].name == s.rooms[i].name
    ensures r.state.listName == s.listName && r.state.target == s.target
    ensures r.state.draft.id == s.draft.id && r.state.draft.name == s.draft.name
    ensures !HasTarget(s) ==> r.state.rooms == s.rooms
    ensures !HasTarget(s) ==> forall k :: Get0(r.state.draft.items, k) == Get0(s.draft.items, k) + EntriesQty(entries, k)
    ensures HasTarget(s) ==> r.state.draft == s.draft
    ensures HasTarget(s) && NoRoomWithId(s.rooms, s.target.value) ==> r.state == s
    ensures HasTarget(s) && !NoRoomWithId(s.rooms, s.target.value) ==>
              forall k :: RoomsQty(r.state.rooms, k) == RoomsQty(s.rooms, k) + EntriesQty(entries, k)
    // Which room receives them is stated by `AddEntriesRoute`.
    decreases |entries|
  {
    if entries == [] then Added(s, 0.0)
    else
      var e := entries[0];
      var first := AddCustomEntry(s, e.caption, e.qty);
      var rest := AddEntries(first.state, entries[1..]);
      AddEntryStep(s, e);
      assert HasTarget(s) ==> (NoRoomWithId(first.state.rooms, s.target.value) <==> NoRoomWithId(s.rooms, s.target.value));
      Added(rest.state, first.count + rest.count)
  }

  /** Which room the custom entries reach: without a target the draft receives them all;
      with one, the first room with the target id receives them all and every other room
      stays as it was. */
  lemma {:induction false} AddEntriesRoute(s: State, entries: seq<Entry>)
    ensures var r := AddEntries(s, entries).state;
            && (!HasTarget(s) ==> r == s.(draft := AddEntriesTo(s.draft, entries)))
            && (HasTarget(s) ==> forall i :: FirstWithId(s.rooms, i, s.target.value) ==>
                  && r.rooms[i] == AddEntriesTo(s.rooms[i], entries)
                  && forall j :: 0 <= j < |s.rooms| && j != i ==> r.rooms[j] == s.rooms[j])
    decreases |entries|
  {
    if entries != [] {
      var e := entries[0];
      var first := AddCustomEntry(s, e.caption, e.qty).state;
      AddEntriesRoute(first, entries[1..]);
      if HasTarget(s) {
        forall i | FirstWithId(s.rooms, i, s.target.value)
          ensures FirstWithId(first.rooms, i, s.target.value)
        {
          if e.qty > 0.0 {
            assert first.rooms[i] == AddCustom(s.rooms[i], e.caption, e.qty);
            forall j | 0 <= j < i ensures first.rooms[j].id != s.target.value {
              assert first.rooms[j] == s.rooms[j];
            }
          }
        }
      }
    }
  }

  /** One custom entry, measured per key. */
  lemma AddEntryStep(s: State, e: Entry)
    ensures var r := AddCustomEntry(s, e.caption, e.qty).state;
            && |r.rooms| == |s.rooms|
            && (forall i :: 0 <= i < |s.rooms| ==> r.rooms[i].id == s.rooms[i].id && r.rooms[i].name == s.rooms[i].name)
            && r.draft.id == s.draft.id && r.draft.name == s.draft.name
            && (!HasTarget(s) ==> r.rooms == s.rooms)
            && (!HasTarget(s) ==> forall k :: Get0(r.draft.items, k) == Get0(s.draft.items, k)
                                     + (if Catalog.CustomKey(e.caption) == k then EntryCount(e) else 0.0))
            && (HasTarget(s) && !NoRoomWithId(s.rooms, s.target.value) ==>
                  forall k :: RoomsQty(r.rooms, k) == RoomsQty(s.rooms, k)
                              + (if Catalog.CustomKey(e.caption) == k then EntryCount(e) else 0.0))
  {
    var r := AddCustomEntry(s, e.caption, e.qty).state;
    if e.qty > 0.0 && HasTarget(s) {
      match IndexOfId(s.rooms, s.target.value)
      case None =>
      case Some(i) =>
        forall j | 0 <= j < |s.rooms| ensures r.rooms[j].id == s.rooms[j].id && r.rooms[j].name == s.rooms[j].name {
          if j != i {
            assert r.rooms[j] == s.rooms[j];
          }
        }
        forall k ensures RoomsQty(r.rooms, k) == RoomsQty(s.rooms, k)
                           + (if Catalog.CustomKey(e.caption) == k then EntryCount(e) else 0.0) {
          assert r.rooms == s.rooms[i := r.rooms[i]];
          RoomsQtyUpdate(s.rooms, i, r.rooms[i], k);
        }
    }
  }

  /** What the custom-items form holds when "add" is pressed: the frame and mirror
      selectors and the thirteen quantity fields. */
  datatype PersForm = PersForm(
    frame: string, mirrorSize: string, mirrorSpaces: string,
    qFrame: Option<real>, qMirror: Option<real>,
    qSwitch: Option<real>, qParallel: Option<real>, qIntermediate: Option<real>,
    qSocket10: Option<real>, qSocket20: Option<real>,
    qCat5e: Option<real>, qCat6e: Option<real>, qAntenna: Option<real>,
    qPushButton: Option<real>, qDimmer: Option<real>, qBlank: Option<real>)

  /** The mirror's caption: blank, or its number of openings with the singular for one. */
  function MirrorCaption(size: string, spaces: string): string {
    if spaces == "cego" then "Espelho " + size + " cego"
    else "Espelho " + size + " " + spaces + " " + (if spaces == "1" then "espa\U{00E7}o" else "espa\U{00E7}os")
  }

  /** The thirteen custom entries `addPers` adds, in its order. */
  function PersEntries(f: PersForm): seq<Entry> {
    [ Entry("Bastidor " + f.frame, Positive(f.qFrame)),
      Entry(MirrorCaption(f.mirrorSize, f.mirrorSpaces), Positive(f.qMirror)),
      Entry("M\U{00F3}dulo de interruptor simples", Positive(f.qSwitch)),
      Entry("M\U{00F3}dulo de interruptor paralelo", Positive(f.qParallel)),
      Entry("M\U{00F3}dulo de interruptor intermedi\U{00E1}rio", Positive(f.qIntermediate)),
      Entry("M\U{00F3}dulo de tomada 10A", Positive(f.qSocket10)),
      Entry("M\U{00F3}dulo de tomada 20A", Positive(f.qSocket20)),
      Entry("M\U{00F3}dulo RJ45 Cat 5e", Positive(f.qCat5e)),
      Entry("M\U{00F3}dulo RJ45 Cat 6e", Positive(f.qCat6e)),
      Entry("M\U{00F3}dulo de antena", Positive(f.qAntenna)),
      Entry("Bot\U{00E3}o pulsador", Positive(f.qPushButton)),
      Entry("M\U{00F3}dulo dimer", Positive(f.qDimmer)),
      Entry("M\U{00F3}dulo cego", Positive(f.qBlank)) ]
  }

  /** `addPers`: adds every custom entry; when something was added and no target is in
      force, merges the draft into the rooms. The merge's own rejection of an unnamed draft
      is not reported back: the reply says saved, and the entries stay in the draft. */
  function AddPers(u: Runtime, s: State, f: PersForm, freshRoomId: string, freshDraftId: string): (r: Reply)
    ensures r.status != MissingName
    ensures r.status == NothingEntered <==> EntriesTotal(PersEntries(f)) == 0.0
    ensures r.status == NothingEntered ==> r.state == s
    ensures r.state.listName == s.listName && r.state.target == s.target
    // No target, named draft: the entries and the draft end up in the rooms; fresh draft.
    ensures r.status == Saved && !HasTarget(s) && Trim(s.draft.name) != [] ==>
              && r.state.draft == EmptyRoom(freshDraftId, Trim(s.draft.name))
              && forall k :: RoomsQty(r.state.rooms, k)
                             == RoomsQty(s.rooms, k) + Get0(s.draft.items, k) + EntriesQty(PersEntries(f), k)
    // No target, unnamed draft: the entries wait in the draft.
    ensures r.status == Saved && !HasTarget(s) && Trim(s.draft.name) == [] ==>
              && r.state.rooms == s.rooms
              && forall k :: Get0(r.state.draft.items, k) == Get0(s.draft.items, k) + EntriesQty(PersEntries(f), k)
    // A target: the draft is untouched and the entries go to the target room, if it exists.
    ensures HasTarget(s) ==> r.state.draft == s.draft
    ensures HasTarget(s) && NoRoomWithId(s.rooms, s.target.value) ==> r.state == s
    ensures HasTarget(s) && !NoRoomWithId(s.rooms, s.target.value) ==>
              forall k :: RoomsQty(r.state.rooms, k) == RoomsQty(s.rooms, k) + EntriesQty(PersEntries(f), k)
    // Which room receives the entries is stated by `AddPersRoute`.
  {
    var a := AddEntries(s, PersEntries(f));
    if a.count == 0.0 then Reply(a.state, NothingEntered)
    else if !HasTarget(s) then Reply(Merge(u, a.state, true, freshRoomId, freshDraftId).state, Saved)
    else Reply(a.state, Saved)
  }

  /** Where `addPers` puts the entries: without a target, into the draft, which is then
      merged when something was added (a merge that refuses an unnamed draft leaves it as
      it is); with a target, into the first room with the target id alone. */
  lemma AddPersRoute(u: Runtime, s: State, f: PersForm, freshRoomId: string, freshDraftId: string)
    ensures var r := AddPers(u, s, f, freshRoomId, freshDraftId);
            var d := s.(draft := AddEntriesTo(s.draft, PersEntries(f)));
            && (!HasTarget(s) ==>
                  r.state == (if r.status == Saved then Merge(u, d, true, freshRoomId, freshDraftId).state else d))
            && (HasTarget(s) ==> forall i :: FirstWithId(s.rooms, i, s.target.value) ==>
                  && r.state.rooms[i] == AddEntriesTo(s.rooms[i], PersEntries(f))
                  && forall j :: 0 <= j < |s.rooms| && j != i ==> r.state.rooms[j] == s.rooms[j])
  {
    AddEntriesRoute(s, PersEntries(f));
  }

  /** `abrirPersonalizado`, given the prompt's answer (None when cancelled): an empty answer
      does nothing; a name matching a room makes that room the target; any other name starts
      a fresh draft under that name and clears the target. */
  function OpenCustom(u: Runtime, s: State, answer: Option<string>, freshId: string): (r: State)
    ensures r.rooms == s.rooms && r.listName == s.listName
    ensures answer.None? || answer.value == "" ==> r == s
    ensures answer.Some? && answer.value != "" ==>
              var key := Sanitize(u, Trim(answer.value));
              && (forall i :: FirstWithKey(u, s.rooms, i, key) ==>
                    r.target == Some(s.rooms[i].id) && r.draft == s.draft)
              && (NoRoomWithKey(u, s.rooms, key) ==>
                    r.target == None && r.draft == EmptyRoom(freshId, Trim(answer.value)))
  {
    match answer
    case None => s
    case Some(text) =>
      if text == "" then s
      else
        var name := Trim(text);
        IndexOfKeyFinds(u, s.rooms, Sanitize(u, name));
        match IndexOfKey(u, s.rooms, Sanitize(u, name))
        case Some(i) => s.(target := Some(s.rooms[i].id))
        case None => s.(target := None, draft := EmptyRoom(freshId, name))
  }

  // ---- The printed document ----

  datatype Row = Row(text: string, qty: real)

  /** The row the printed document shows for key `k` of a room, if any: only items with a
      positive quantity are shown. */
  function ExportRow(room: Room, k: string): (r: Option<Row>)
    ensures r.Some? <==> k in room.items && room.items[k] > 0.0
    ensures r.Some? ==> r.value.qty == room.items[k] && r.value.text == Catalog.ExportText(room.labels, k)
  {
    if k in room.items && room.items[k] > 0.0 then Some(Row(Catalog.ExportText(room.labels, k), room.items[k]))
    else None
  }
}

=== FILE: roomkey.dfy ===
/** The room-name comparison key: decompose to NFD, drop combining diacritical marks,
    lower-case, collapse whitespace runs to one space, trim. The key is only ever compared,
    never shown. The Unicode tables of the JavaScript runtime are not fixed by the model:
    they are a parameter, and each property states what it needs of them. */
module RoomKey {
  import opened JsText

  /** What `replace(/[\u0300-\u036f]/g, '')` removes: the Combining Diacritical Marks block. */
  predicate IsMark(c: char) {
    '\U{0300}' <= c <= '\U{036F}'
  }

  /** The runtime's Unicode behaviour. `hasNfd` is false when `normalize('NFD')` throws, in
      which case the fallback branch lower-cases without stripping marks. `decompose` is a
      code point's full canonical decomposition, `lower` its `toLowerCase` image. */
  datatype Runtime = Runtime(hasNfd: bool, decompose: char -> string, lower: char -> string)

  /** `normalize('NFD')`, code point by code point. */
  function Decompose(u: Runtime, s: string): string {
    if s == [] then [] else u.decompose(s[0]) + Decompose(u, s[1..])
  }

  /** The combining marks removed. */
  function StripMarks(s: string): string {
    if s == [] then [] else (if IsMark(s[0]) then [] else [s[0]]) + StripMarks(s[1..])
  }

  /** `toLowerCase`, code point by code point. */
  function Lower(u: Runtime, s: string): string {
    if s == [] then [] else u.lower(s[0]) + Lower(u, s[1..])
  }

  /** The string before whitespace handling, in both branches of the source's try/catch. */
  function Folded(u: Runtime, s: string): string {
    if u.hasNfd then Lower(u, StripMarks(Decompose(u, s))) else Lower(u, s)
  }

  /** `sanitize`: the comparison key of a room name. */
  function Sanitize(u: Runtime, s: string): string {
    Trim(Collapse(Folded(u, s)))
  }

  /** Whatever the runtime, the key has no whitespace margins, only plain spaces, and never
      two of them in a row. */
  lemma SanitizeWellSpaced(u: Runtime, s: string)
    ensures WellSpaced(Sanitize(u, s))
  {
    var f := Folded(u, s);
    CollapseShape(f);
    TrimKeepsSpacing(Collapse(f));
  }

  // ---- The key, one character at a time ----

  /** What one input code point contributes to the key before whitespace handling. */
  function CharKey(u: Runtime, c: char): string {
    if u.hasNfd then Lower(u, StripMarks(u.decompose(c))) else u.lower(c)
  }

  function FoldKeys(u: Runtime, s: string): string {
    if s == [] then [] else CharKey(u, s[0]) + FoldKeys(u, s[1..])
  }

  lemma {:induction false} DecomposeConcat(u: Runtime, a: string, b: string)
    ensures Decompose(u, a + b) == Decompose(u, a) + Decompose(u, b)
  {
    if a == [] {
      assert a + b == b;
    } else {
      assert (a + b)[1..] == a[1..] + b;
      DecomposeConcat(u, a[1..], b);
    }
  }

  lemma {:induction false} StripMarksConcat(a: string, b: string)
    ensures StripMarks(a + b) == StripMarks(a) + StripMarks(b)
  {
    if a == [] {
      assert a + b == b;
    } else {
      assert (a + b)[1..] == a[1..] + b;
      StripMarksConcat(a[1..], b);
    }
  }

  lemma {:induction false} LowerConcat(u: Runtime, a: string, b: string)
    ensures Lower(u, a + b) == Lower(u, a) + Lower(u, b)
  {
    if a == [] {
      assert a + b == b;
    } else {
      assert (a + b)[1..] == a[1..] + b;
      LowerConcat(u, a[1..], b);
    }
  }

  lemma {:induction false} FoldKeysConcat(u: Runtime, a: string, b: string)
    ensures FoldKeys(u, a + b) == FoldKeys(u, a) + FoldKeys(u, b)
  {
    if a == [] {
      assert a + b == b;
    } else {
      assert (a + b)[1..] == a[1..] + b;
      FoldKeysConcat(u, a[1..], b);
    }
  }

  /** The source's whole-string pipeline equals the per-character key, concatenated. */
  lemma {:induction false} FoldedByChar(u: Runtime, s: string)
    ensures Folded(u, s) == FoldKeys(u, s)
  {
    if s != [] {
      FoldedByChar(u, s[1..]);
      if u.hasNfd {
        var d, rest := u.decompose(s[0]), Decompose(u, s[1..]);
        StripMarksConcat(d, rest);
        LowerConcat(u, StripMarks(d), StripMarks(rest));
      }
    }
  }

  lemma SanitizeByChar(u: Runtime, s: string)
    ensures Sanitize(u, s) == Trim(Collapse(FoldKeys(u, s)))
  {
    FoldedByChar(u, s);
  }

  // ---- What the runtime is assumed to do ----

  /** Whitespace folds to whitespace: the key of a whitespace code point is a non-empty run of
      whitespace. Real tables meet this: lower-casing leaves whitespace alone, and NFD sends
      whitespace to whitespace (U+2000 and U+2001 decompose to U+2002 and U+2003). */
  ghost predicate SpacesFoldToSpaces(u: Runtime) {
    forall c :: IsSpace(c) ==> CharKey(u, c) != [] && AllSpace(CharKey(u, c))
  }

  /** Every code point the key emits is its own key, and so is the plain space that the
      collapse step writes: the runtime never lower-cases a decomposed letter into a
      combining mark, into something that decomposes further, or into something that
      lower-cases again. This is what idempotence of the key rests on. */
  ghost predicate KeyStable(u: Runtime) {
    && CharKey(u, ' ') == [' ']
    && forall c, d :: d in CharKey(u, c) ==> CharKey(u, d) == [d]
  }

  /** A whitespace run folds to a whitespace run, non-empty when the run is. */
  lemma {:induction false} SpacesKeyToSpaces(u: Runtime, w: string)
    requires SpacesFoldToSpaces(u) && AllSpace(w)
    ensures AllSpace(FoldKeys(u, w))
    ensures w != [] ==> FoldKeys(u, w) != []
  {
    if w != [] {
      assert IsSpace(w[0]);
      SpacesKeyToSpaces(u, w[1..]);
      var k, rest := CharKey(u, w[0]), FoldKeys(u, w[1..]);
      assert FoldKeys(u, w) == k + rest;
      forall i | 0 <= i < |k + rest| ensures IsSpace((k + rest)[i]) {
        if i < |k| { assert (k + rest)[i] == k[i]; } else { assert (k + rest)[i] == rest[i - |k|]; }
      }
    }
  }

  /** The raw-table facts behind `SpacesFoldToSpaces`, as Unicode states them: NFD sends each
      whitespace code point to a non-empty run of whitespace, and lower-casing leaves
      whitespace alone. */
  lemma SpacesFoldToSpacesFromTables(u: Runtime)
    requires forall c :: IsSpace(c) ==> u.decompose(c) != [] && AllSpace(u.decompose(c))
    requires forall c :: IsSpace(c) ==> u.lower(c) == [c]
    ensures SpacesFoldToSpaces(u)
  {
    forall c | IsSpace(c) ensures CharKey(u, c) != [] && AllSpace(CharKey(u, c)) {
      if u.hasNfd {
        StripKeepsSpaces(u.decompose(c));
        LowerKeepsSpaces(u, u.decompose(c));
      }
    }
  }

  lemma {:induction false} StripKeepsSpaces(w: string)
    requires AllSpace(w)
    ensures StripMarks(w) == w
  {
    if w != [] {
      assert IsSpace(w[0]) && !IsMark(w[0]);
      StripKeepsSpaces(w[1..]);
      assert w == [w[0]] + w[1..];
    }
  }

  lemma {:induction false} LowerKeepsSpaces(u: Runtime, w: string)
    requires AllSpace(w)
    requires forall c :: IsSpace(c) ==> u.lower(c) == [c]
    ensures Lower(u, w) == w
  {
    if w != [] {
      assert IsSpace(w[0]);
      LowerKeepsSpaces(u, w[1..]);
      assert w == [w[0]] + w[1..];
    }
  }

  lemma {:induction false} FoldKeysFixed(u: Runtime, t: string)
    requires forall i :: 0 <= i < |t| ==> CharKey(u, t[i]) == [t[i]]
    ensures FoldKeys(u, t) == t
  {
    if t != [] {
      FoldKeysFixed(u, t[1..]);
      assert t == [t[0]] + t[1..];
    }
  }

  /** Each character of the folded string comes from the key of some input character. */
  lemma {:induction false} FoldKeysChars(u: Runtime, s: string, d: char)
    requires d in FoldKeys(u, s)
    ensures exists j :: 0 <= j < |s| && d in CharKey(u, s[j])
  {
    if d in CharKey(u, s[0]) {
    } else {
      FoldKeysChars(u, s[1..], d);
      var j :| 0 <= j < |s[1..]| && d in CharKey(u, s[1..][j]);
      assert s[j + 1] == s[1..][j];
    }
  }

  // ---- Properties of the key ----

  /** Sanitizing a key again gives the same key, on any runtime whose tables are stable. */
  lemma SanitizeIdempotent(u: Runtime, s: string)
    requires KeyStable(u)
    ensures Sanitize(u, Sanitize(u, s)) == Sanitize(u, s)
  {
    var t := Sanitize(u, s);
    var f := FoldKeys(u, s);
    SanitizeWellSpaced(u, s);
    SanitizeByChar(u, s);
    CollapseChars(f);
    TrimChars(Collapse(f));
    forall i | 0 <= i < |t| ensures CharKey(u, t[i]) == [t[i]] {
      var d := t[i];
      assert d in t;
      if d != ' ' {
        FoldKeysChars(u, s, d);
        var j :| 0 <= j < |s| && d in CharKey(u, s[j]);
      }
    }
    FoldKeysFixed(u, t);
    SanitizeByChar(u, t);
    CollapseFixed(t);
    TrimFixed(t);
  }

  /** Whitespace around a name does not change its key. */
  lemma SanitizeIgnoresMargins(u: Runtime, w1: string, x: string, w2: string)
    requires SpacesFoldToSpaces(u) && AllSpace(w1) && AllSpace(w2)
    ensures Sanitize(u, w1 + x + w2) == Sanitize(u, x)
  {
    var f1, fx, f2 := FoldKeys(u, w1), FoldKeys(u, x), FoldKeys(u, w2);
    FoldKeysConcat(u, w1 + x, w2);
    FoldKeysConcat(u, w1, x);
    SpacesKeyToSpaces(u, w1);
    SpacesKeyToSpaces(u, w2);
    SanitizeByChar(u, w1 + x + w2);
    SanitizeByChar(u, x);
    TrimCollapseTrailing(f1 + fx, f2);
    TrimCollapseLeading(f1, fx);
  }

  /** The key of a trimmed name is the key of the name. */
  lemma SanitizeOfTrim(u: Runtime, x: string)
    requires SpacesFoldToSpaces(u)
    ensures Sanitize(u, Trim(x)) == Sanitize(u, x)
  {
    var w1, w2 := TrimMargins(x);
    SanitizeIgnoresMargins(u, w1, Trim(x), w2);
  }

  /** Any two non-empty runs of whitespace between the same text give the same key. */
  lemma SanitizeCollapsesRuns(u: Runtime, a: string, w1: string, w2: string, b: string)
    requires SpacesFoldToSpaces(u)
    requires w1 != [] && AllSpace(w1) && w2 != [] && AllSpace(w2)
    ensures Sanitize(u, a + w1 + b) == Sanitize(u, a + w2 + b)
  {
    var fa, fb := FoldKeys(u, a), FoldKeys(u, b);
    var f1, f2 := FoldKeys(u, w1), FoldKeys(u, w2);
    FoldKeysConcat(u, a + w1, b);
    FoldKeysConcat(u, a, w1);
    FoldKeysConcat(u, a + w2, b);
    FoldKeysConcat(u, a, w2);
    SpacesKeyToSpaces(u, w1);
    SpacesKeyToSpaces(u, w2);
    SanitizeByChar(u, a + w1 + b);
    SanitizeByChar(u, a + w2 + b);
    CollapseRun(fa, f1, fb);
    CollapseRun(fa, f2, fb);
  }

  /** Replacing a character by one with the same key, such as the other letter case or the
      accented form of the same letter, does not change the key of the name. */
  lemma SanitizeCharClass(u: Runtime, a: string, c: char, d: char, b: string)
    requires CharKey(u, c) == CharKey(u, d)
    ensures Sanitize(u, a + [c] + b) == Sanitize(u, a + [d] + b)
  {
    FoldKeysConcat(u, a + [c], b);
    FoldKeysConcat(u, a, [c]);
    FoldKeysConcat(u, a + [d], b);
    FoldKeysConcat(u, a, [d]);
    assert FoldKeys(u, [c]) == CharKey(u, c) + FoldKeys(u, []);
    assert FoldKeys(u, [d]) == CharKey(u, d) + FoldKeys(u, []);
    SanitizeByChar(u, a + [c] + b);
    SanitizeByChar(u, a + [d] + b);
  }

  /** With NFD available, a code point that decomposes to combining marks only vanishes
      from the key. */
  lemma SanitizeDropsMarks(u: Runtime, a: string, m: char, b: string)
    requires u.hasNfd
    requires forall i :: 0 <= i < |u.decompose(m)| ==> IsMark(u.decompose(m)[i])
    ensures Sanitize(u, a + [m] + b) == Sanitize(u, a + b)
  {
    StripsToNothing(u.decompose(m));
    assert Lower(u, []) == [];
    EmptyKeyVanishes(u, a, m, b);
    SanitizeByChar(u, a + [m] + b);
    SanitizeByChar(u, a + b);
  }

  /** A character whose key is empty leaves no trace in the folded string. */
  lemma EmptyKeyVanishes(u: Runtime, a: string, m: char, b: string)
    requires CharKey(u, m) == []
    ensures FoldKeys(u, a + [m] + b) == FoldKeys(u, a + b)
  {
    FoldKeysConcat(u, a + [m], b);
    FoldKeysConcat(u, a, [m]);
    FoldKeysConcat(u, a, b);
    assert FoldKeys(u, [m]) == CharKey(u, m) + FoldKeys(u, []);
    assert FoldKeys(u, a) + FoldKeys(u, [m]) == FoldKeys(u, a);
  }

  lemma {:induction false} StripsToNothing(s: string)
    requires forall i :: 0 <= i < |s| ==> IsMark(s[i])
    ensures StripMarks(s) == []
  {
    if s != [] {
      StripsToNothing(s[1..]);
    }
  }

  // ---- When the runtime's tables are stable ----

  /** Conditions on the raw tables that give `KeyStable` in the NFD branch: decomposition is
      complete (a decomposed code point does not decompose again), and lower-casing a fully
      decomposed letter yields no combining mark and only code points that are already
      decomposed and lower-case. U+0130 (capital I with dot) is harmless here: it decomposes
      to I followed by U+0307, so the dot is stripped before lower-casing. */
  ghost predicate CleanTables(u: Runtime) {
    && u.hasNfd
    && u.decompose(' ') == [' '] && u.lower(' ') == [' ']
    && (forall c, d :: d in u.decompose(c) ==> u.decompose(d) == [d])
    && (forall c, d :: u.decompose(c) == [c] && !IsMark(c) && d in u.lower(c) ==>
          !IsMark(d) && u.decompose(d) == [d] && u.lower(d) == [d])
  }

  lemma CleanTablesKeyStable(u: Runtime)
    requires CleanTables(u)
    ensures KeyStable(u)
  {
    assert StripMarks([' ']) == [' '];
    assert Lower(u, [' ']) == u.lower(' ') + Lower(u, []);
    forall c, d | d in CharKey(u, c) ensures CharKey(u, d) == [d] {
      var e := LowerSource(u, StripMarks(u.decompose(c)), d);
      StripMarksSource(u.decompose(c), e);
      assert u.decompose(e) == [e];
      assert !IsMark(d) && u.decompose(d) == [d] && u.lower(d) == [d];
      assert StripMarks([d]) == [d];
      assert Lower(u, [d]) == u.lower(d) + Lower(u, []);
    }
  }

  /** A character of a lower-cased string comes from lower-casing some input character. */
  lemma {:induction false} LowerSource(u: Runtime, s: string, d: char) returns (e: char)
    requires d in Lower(u, s)
    ensures e in s && d in u.lower(e)
  {
    if d in u.lower(s[0]) {
      e := s[0];
    } else {
      e := LowerSource(u, s[1..], d);
    }
  }

  /** A character that survives mark stripping was in the input and is not a mark. */
  lemma {:induction false} StripMarksSource(s: string, e: char)
    requires e in StripMarks(s)
    ensures e in s && !IsMark(e)
  {
    if e in (if IsMark(s[0]) then [] else [s[0]]) {
    } else {
      StripMarksSource(s[1..], e);
    }
  }

  /** Idempotence really does depend on the runtime: a lower-casing that emits a combining
      mark makes the second pass strip it. */
  lemma MarkEmittingLowerBreaksIdempotence()
    ensures var u := Runtime(true, c => [c], c => if c == 'I' then ['i', '\U{0307}'] else [c]);
            Sanitize(u, Sanitize(u, "I")) != Sanitize(u, "I")
  {
    var u := Runtime(true, c => [c], c => if c == 'I' then ['i', '\U{0307}'] else [c]);
    var once := ['i', '\U{0307}'];
    assert Folded(u, "I") == once by {
      assert Decompose(u, "I") == "I";
      assert StripMarks("I") == "I";
      assert Lower(u, "I") == once + Lower(u, []);
    }
    assert Collapse(once) == once by {
      assert Collapse(once[1..]) == once[1..];
    }
    assert Sanitize(u, "I") == once;
    assert Folded(u, once) == "i" by {
      assert Decompose(u, once) == once by {
        assert Decompose(u, once[1..]) == once[1..];
      }
      assert StripMarks(once) == "i" by {
        assert StripMarks(once[1..]) == [];
      }
      assert Lower(u, "i") == "i" + Lower(u, []);
    }
    assert Collapse("i") == "i";
  }
}

=== FILE: text.dfy ===
/** The parts of JavaScript's string library the inventory relies on: the whitespace class
    shared by `\s` and `String.prototype.trim`, `trim` itself, and the `replace(/\s+/g, ' ')`
    collapse of whitespace runs. */
module JsText {

  /** ECMAScript WhiteSpace and LineTerminator code points: exactly what `\s` matches and
      what `trim` removes. */
  predicate IsSpace(c: char) {
    || c == '\t' || c == '\n' || c == '\U{000B}' || c == '\U{000C}' || c == '\r'
    || c == ' ' || c == '\U{00A0}' || c == '\U{1680}'
    || ('\U{2000}' <= c <= '\U{200A}')
    || c == '\U{2028}' || c == '\U{2029}' || c == '\U{202F}' || c == '\U{205F}'
    || c == '\U{3000}' || c == '\U{FEFF}'
  }

  predicate AllSpace(s: string) {
    forall i :: 0 <= i < |s| ==> IsSpace(s[i])
  }

  /** Neither the first nor the last character is whitespace. */
  predicate NoEdgeSpace(s: string) {
    s == [] || (!IsSpace(s[0]) && !IsSpace(s[|s| - 1]))
  }

  /** Every whitespace character is the plain space U+0020. */
  predicate PlainSpaces(s: string) {
    forall i :: 0 <= i < |s| ==> IsSpace(s[i]) ==> s[i] == ' '
  }

  /** No two adjacent characters are both whitespace. */
  predicate NoDoubleSpace(s: string) {
    forall i :: 0 < i < |s| ==> !(IsSpace(s[i - 1]) && IsSpace(s[i]))
  }

  /** The shape of a trimmed, collapsed string. */
  predicate WellSpaced(s: string) {
    NoEdgeSpace(s) && PlainSpaces(s) && NoDoubleSpace(s)
  }

  /** Leading whitespace removed: the longest suffix that does not start with whitespace. */
  function TrimStart(s: string): (r: string)
    ensures |r| <= |s|
    ensures r == [] || !IsSpace(r[0])
  {
    if s != [] && IsSpace(s[0]) then TrimStart(s[1..]) else s
  }

  /** `TrimStart` cuts off a prefix, and only whitespace. */
  lemma {:induction false} TrimStartCuts(s: string)
    ensures TrimStart(s) == s[|s| - |TrimStart(s)|..]
    ensures AllSpace(s[..|s| - |TrimStart(s)|])
  {
    if s != [] && IsSpace(s[0]) {
      TrimStartCuts(s[1..]);
      var k := |s| - |TrimStart(s)|;
      assert s[..k] == [s[0]] + s[1..][..k - 1];
    }
  }

  /** Trailing whitespace removed: the longest prefix that does not end with whitespace. */
  function TrimEnd(s: string): (r: string)
    ensures |r| <= |s|
    ensures r == [] || !IsSpace(r[|r| - 1])
  {
    if s != [] && IsSpace(s[|s| - 1]) then TrimEnd(s[..|s| - 1]) else s
  }

  /** `TrimEnd` cuts off a suffix, and only whitespace. */
  lemma {:induction false} TrimEndCuts(s: string)
    ensures TrimEnd(s) == s[..|TrimEnd(s)|]
    ensures AllSpace(s[|TrimEnd(s)|..])
  {
    if s != [] && IsSpace(s[|s| - 1]) {
      var p := s[..|s| - 1];
      TrimEndCuts(p);
      var k := |TrimEnd(s)|;
      assert s[k..] == p[k..] + [s[|s| - 1]];
    }
  }

  /** `String.prototype.trim`: the input with its whitespace margins cut off. Where the
      result sits in the input is stated by `TrimSlice`. */
  function Trim(s: string): (r: string)
    ensures NoEdgeSpace(r) && |r| <= |s|
  {
    var t := TrimStart(s);
    var r := TrimEnd(t);
    assert NoEdgeSpace(r) by {
      if r != [] {
        TrimEndCuts(t);
        assert r[0] == t[0];
      }
    }
    r
  }

  /** The trimmed string is a slice of the input with only whitespace on either side. */
  lemma TrimSlice(s: string) returns (i: nat)
    ensures var r := Trim(s);
            i <= |s| - |r| && r == s[i..i + |r|] && AllSpace(s[..i]) && AllSpace(s[i + |r|..])
  {
    var t := TrimStart(s);
    var r := TrimEnd(t);
    i := |s| - |t|;
    TrimStartCuts(s);
    assert t == s[i..];
    TrimEndCuts(t);
    assert r == t[..|r|];
    assert t[..|r|] == s[i..i + |r|];
    assert t[|r|..] == s[i + |r|..];
  }

  /** `replace(/\s+/g, ' ')`: every maximal run of whitespace becomes one plain space.
      What this guarantees is stated by `CollapseShape` and `CollapseChars`. */
  function Collapse(s: string): string
    decreases |s|
  {
    if s == [] then []
    else if IsSpace(s[0]) then [' '] + Collapse(TrimStart(s[1..]))
    else [s[0]] + Collapse(s[1..])
  }

  /** The collapse has only plain spaces, never two in a row, is empty exactly when the input
      is, and starts with whitespace exactly when the input does. */
  lemma {:induction false} CollapseShape(s: string)
    ensures PlainSpaces(Collapse(s)) && NoDoubleSpace(Collapse(s))
    ensures Collapse(s) == [] <==> s == []
    ensures Collapse(s) != [] ==> (IsSpace(Collapse(s)[0]) <==> IsSpace(s[0]))
    decreases |s|
  {
    if s != [] {
      if IsSpace(s[0]) {
        var t := TrimStart(s[1..]);
        CollapseShape(t);
        ConsKeepsSpacing(' ', Collapse(t));
      } else {
        CollapseShape(s[1..]);
        ConsKeepsSpacing(s[0], Collapse(s[1..]));
      }
    }
  }

  /** Putting one character in front of a collapsed string keeps it collapsed, as long as the
      two do not form a pair of whitespace characters. */
  lemma ConsKeepsSpacing(c: char, t: string)
    requires PlainSpaces(t) && NoDoubleSpace(t)
    requires IsSpace(c) ==> c == ' ' && (t == [] || !IsSpace(t[0]))
    ensures PlainSpaces([c] + t) && NoDoubleSpace([c] + t)
  {
    var r := [c] + t;
    forall i | 0 < i < |r| ensures !(IsSpace(r[i - 1]) && IsSpace(r[i])) {
      assert r[i] == t[i - 1];
      if i > 1 {
        assert r[i - 1] == t[i - 2];
      }
    }
    forall i | 0 <= i < |r| && IsSpace(r[i]) ensures r[i] == ' ' {
      if i > 0 {
        assert r[i] == t[i - 1];
      }
    }
  }

  /** Every character of a collapse is a plain space or comes from the input. */
  lemma {:induction false} CollapseChars(s: string)
    ensures forall c :: c in Collapse(s) ==> c == ' ' || c in s
    decreases |s|
  {
    if s != [] {
      var tail := if IsSpace(s[0]) then TrimStart(s[1..]) else s[1..];
      CollapseChars(tail);
      TrimStartCuts(s[1..]);
      forall c | c in tail ensures c in s {
        var k :| 0 <= k < |tail| && tail[k] == c;
        assert s[|s| - |tail| + k] == c;
      }
      if IsSpace(s[0]) {
        assert Collapse(s) == [' '] + Collapse(tail);
      } else {
        assert Collapse(s) == [s[0]] + Collapse(tail);
      }
    }
  }

  lemma {:induction false} AllSpaceTrimStart(w: string)
    requires AllSpace(w)
    ensures TrimStart(w) == []
  {
    if w != [] {
      AllSpaceTrimStart(w[1..]);
    }
  }

  /** How `TrimStart` distributes over concatenation. */
  lemma {:induction false} TrimStartConcat(a: string, y: string)
    ensures TrimStart(a + y) == if TrimStart(a) == [] then TrimStart(y) else TrimStart(a) + y
  {
    if a == [] {
      assert a + y == y;
    } else if IsSpace(a[0]) {
      assert (a + y)[1..] == a[1..] + y;
      TrimStartConcat(a[1..], y);
    } else {
      assert (a + y)[0] == a[0];
    }
  }

  /** Whitespace in front of a string makes no difference to `TrimStart`. */
  lemma TrimStartSkipsSpace(w: string, y: string)
    requires AllSpace(w)
    ensures TrimStart(w + y) == TrimStart(y)
  {
    AllSpaceTrimStart(w);
    TrimStartConcat(w, y);
  }

  /** A run of whitespace, however long, collapses exactly like a single space. */
  lemma {:induction false} CollapseRun(a: string, w: string, b: string)
    requires w != [] && AllSpace(w)
    ensures Collapse(a + w + b) == Collapse(a + [' '] + b)
    decreases |a|, 1
  {
    if a == [] {
      assert a + w + b == w + b;
      assert a + [' '] + b == [' '] + b;
      assert (w + b)[1..] == w[1..] + b;
      assert ([' '] + b)[1..] == b;
      TrimStartSkipsSpace(w[1..], b);
    } else if IsSpace(a[0]) {
      CollapseRunSpaceHead(a, w, b);
    } else {
      assert (a + w + b)[1..] == a[1..] + w + b;
      assert (a + [' '] + b)[1..] == a[1..] + [' '] + b;
      CollapseRun(a[1..], w, b);
    }
  }

  lemma {:induction false} CollapseRunSpaceHead(a: string, w: string, b: string)
    requires w != [] && AllSpace(w) && a != [] && IsSpace(a[0])
    ensures Collapse(a + w + b) == Collapse(a + [' '] + b)
    decreases |a|, 0
  {
    var t := TrimStart(a[1..]);
    assert (a + w + b)[1..] == a[1..] + (w + b);
    assert (a + [' '] + b)[1..] == a[1..] + ([' '] + b);
    assert Collapse(a + w + b) == [' '] + Collapse(TrimStart(a[1..] + (w + b)));
    assert Collapse(a + [' '] + b) == [' '] + Collapse(TrimStart(a[1..] + ([' '] + b)));
    TrimStartConcat(a[1..], w + b);
    TrimStartConcat(a[1..], [' '] + b);
    if t == [] {
      TrimStartSkipsSpace(w, b);
      TrimStartSkipsSpace([' '], b);
    } else {
      assert t + (w + b) == t + w + b;
      assert t + ([' '] + b) == t + [' '] + b;
      CollapseRun(t, w, b);
    }
  }

  /** Appending one space to a collapsed string adds a space unless one is already there. */
  lemma {:induction false} CollapseSnoc(x: string)
    ensures Collapse(x + [' ']) ==
            if x != [] && IsSpace(x[|x| - 1]) then Collapse(x) else Collapse(x) + [' ']
    decreases |x|, 1
  {
    if x == [] {
      assert x + [' '] == [' '];
    } else if IsSpace(x[0]) {
      CollapseSnocSpaceHead(x);
    } else {
      assert (x + [' '])[1..] == x[1..] + [' '];
      CollapseSnoc(x[1..]);
      if |x| > 1 {
        assert x[1..][|x| - 2] == x[|x| - 1];
      }
    }
  }

  lemma {:induction false} CollapseSnocSpaceHead(x: string)
    requires x != [] && IsSpace(x[0])
    ensures Collapse(x + [' ']) ==
            if IsSpace(x[|x| - 1]) then Collapse(x) else Collapse(x) + [' ']
    decreases |x|, 0
  {
    var t := TrimStart(x[1..]);
    assert (x + [' '])[1..] == x[1..] + [' '];
    TrimStartConcat(x[1..], [' ']);
    TrimStartCuts(x[1..]);
    if t == [] {
      assert TrimStart([' ']) == [];
      if |x| > 1 {
        assert IsSpace(x[1..][|x| - 2]);
      }
    } else {
      assert Collapse(x + [' ']) == [' '] + Collapse(t + [' ']);
      CollapseSnoc(t);
      assert t[|t| - 1] == x[1..][|x| - 2] == x[|x| - 1];
    }
  }

  /** A trailing space never survives `Trim`. */
  lemma TrimSnocSpace(c: string)
    ensures Trim(c + [' ']) == Trim(c)
  {
    TrimStartConcat(c, [' ']);
    var t := TrimStart(c);
    if t == [] {
      assert TrimStart([' ']) == [];
    } else {
      assert (t + [' '])[..|t|] == t;
    }
  }

  /** Whitespace in front of the input changes nothing once collapsed and trimmed. */
  lemma TrimCollapseLeading(w: string, x: string)
    requires AllSpace(w)
    ensures Trim(Collapse(w + x)) == Trim(Collapse(x))
  {
    if w == [] {
      assert w + x == x;
    } else {
      CollapseLeadRun(w, x);
      if x != [] && IsSpace(x[0]) {
        assert TrimStart(x) == TrimStart(x[1..]);
      } else {
        LeadingSpaceTrimmed(x);
      }
    }
  }

  /** A leading run of whitespace collapses to one space followed by the rest. */
  lemma CollapseLeadRun(w: string, x: string)
    requires w != [] && AllSpace(w)
    ensures Collapse(w + x) == [' '] + Collapse(TrimStart(x))
  {
    assert [] + w + x == w + x;
    assert [] + [' '] + x == [' '] + x;
    CollapseRun([], w, x);
    assert ([' '] + x)[1..] == x;
  }

  /** One space in front of a collapse that does not start with whitespace is trimmed away. */
  lemma LeadingSpaceTrimmed(x: string)
    requires x == [] || !IsSpace(x[0])
    ensures Trim([' '] + Collapse(TrimStart(x))) == Trim(Collapse(x))
  {
    assert TrimStart(x) == x;
    var c := Collapse(x);
    CollapseShape(x);
    assert ([' '] + c)[1..] == c;
    assert TrimStart([' '] + c) == TrimStart(c);
    assert TrimStart(c) == c;
  }

  /** Whitespace after the input changes nothing either. */
  lemma TrimCollapseTrailing(x: string, w: string)
    requires AllSpace(w)
    ensures Trim(Collapse(x + w)) == Trim(Collapse(x))
  {
    if w == [] {
      assert x + w == x;
    } else {
      assert x + w + [] == x + w;
      assert x + [' '] + [] == x + [' '];
      CollapseRun(x, w, []);
      CollapseSnoc(x);
      TrimSnocSpace(Collapse(x));
    }
  }

  /** A string that already has collapsed whitespace is left alone by `Collapse`. */
  lemma {:induction false} CollapseFixed(t: string)
    requires PlainSpaces(t) && NoDoubleSpace(t)
    ensures Collapse(t) == t
    decreases |t|
  {
    if t != [] {
      assert PlainSpaces(t[1..]) && NoDoubleSpace(t[1..]) by {
        forall i | 0 < i < |t[1..]| ensures !(IsSpace(t[1..][i - 1]) && IsSpace(t[1..][i])) {
          assert t[1..][i - 1] == t[i] && t[1..][i] == t[i + 1];
        }
      }
      if IsSpace(t[0]) {
        assert |t| > 1 ==> !IsSpace(t[1]);
        assert TrimStart(t[1..]) == t[1..];
      }
      CollapseFixed(t[1..]);
    }
  }

  /** A string without whitespace margins is its own `Trim`. */
  lemma TrimFixed(t: string)
    requires NoEdgeSpace(t)
    ensures Trim(t) == t
  {
  }

  /** Cutting a slice out of a collapsed string keeps it collapsed. */
  lemma SliceKeepsSpacing(s: string, i: int, j: int)
    requires 0 <= i <= j <= |s|
    requires PlainSpaces(s) && NoDoubleSpace(s)
    ensures PlainSpaces(s[i..j]) && NoDoubleSpace(s[i..j])
  {
    var t := s[i..j];
    forall k | 0 < k < |t| ensures !(IsSpace(t[k - 1]) && IsSpace(t[k])) {
      assert t[k - 1] == s[i + k - 1] && t[k] == s[i + k];
    }
    forall k | 0 <= k < |t| && IsSpace(t[k]) ensures t[k] == ' ' {
      assert t[k] == s[i + k];
    }
  }

  /** Trimming a collapsed string gives the canonical shape. */
  lemma TrimKeepsSpacing(s: string)
    requires PlainSpaces(s) && NoDoubleSpace(s)
    ensures WellSpaced(Trim(s))
  {
    var r := Trim(s);
    var i := TrimSlice(s);
    SliceKeepsSpacing(s, i, i + |r|);
  }

  /** Every character of a trimmed string comes from the input. */
  lemma TrimChars(s: string)
    ensures forall c :: c in Trim(s) ==> c in s
  {
    var r := Trim(s);
    var i := TrimSlice(s);
    forall c | c in r ensures c in s {
      var k :| 0 <= k < |r| && r[k] == c;
      assert s[i + k] == c;
    }
  }

  /** The input is its trimmed form with whitespace margins around it. */
  lemma TrimMargins(s: string) returns (w1: string, w2: string)
    ensures AllSpace(w1) && AllSpace(w2)
    ensures s == w1 + Trim(s) + w2
  {
    var r := Trim(s);
    var i := TrimSlice(s);
    w1, w2 := s[..i], s[i + |r|..];
    assert s == s[..i] + s[i..i + |r|] + s[i + |r|..];
  }
}

=== FILE: wrappers.dfy ===
/** The optional-value datatype used across the model: JavaScript's `null`/`undefined`
    results, `NaN` parses and "not found" lookups all become `None`. */
module Wrappers {

  datatype Option<+T> = None | Some(value: T) {

    /** Returns the value in Some, or `default` when None (JavaScript's `x || default`
        for values that are never falsy when present). */
    function GetOr(default: T): T {
      match this
      case Some(v) => v
      case None => default
    }
  }
}
